=== FILE: README.md ===
# OCI8 driver core, modelled in Dafny

This project models the Oracle (OCI8) database driver of CodeIgniter 4: the connection class and the schema forge.

The model covers:

- resolving the connection string;
- the rewrite `execute` applies to every statement, and the commit mode it passes;
- transactions;
- calls of stored procedures and the binding of their parameters;
- the error report;
- the three catalog lookups;
- the DDL text the forge generates: the column type mapping, column definitions, ALTER TABLE statement lists, the PL/SQL-wrapped CREATE TABLE, DROP TABLE suffixes and foreign key clauses.

Every `oci_*` call, and every base-class helper the driver relies on, becomes an input of the model:

- a success flag;
- a returned row list (`None` when the query fails);
- an error array;
- an escaping function.

Modules:

- `Results`: `Option`, `Result` and the driver's exceptions as `DbError`.
- `PhpStrings`: the PHP string functions used: `strtoupper`/`strtolower`, `trim`/`ltrim`/`rtrim` with a character set, `strpos`/`stripos` as containment, `str_replace` that deletes characters, `implode`, `ctype_digit`.
- `PhpValues`: PHP array values, `isset`, `??` and `empty()`. `empty("0")` holds.
- `Dsn`: the patterns in `validDSNs`, `isValidDSN`, `buildDSN` and the choice `connect` makes.
- `Session`: the connection state:
  - the commit mode;
  - `resetStmtId`;
  - the current statement;
  - `connect`, `execute`, `_trans*`, `storedProcedure`, `bindParams` and `error()`.
- `Catalog`: the `sscanf` owner split, and `_fieldData`, `_indexData` and `_foreignKeyData`.
- `ForgeTypes`: `_attributeType`, with its deliberate `switch` fall-through, and the condition of `_attributeAutoIncrement`.
- `Forge`: `_processColumn`, `_alterTable`, `_createTable`, `_dropTable` and `_processForeignKeys`.

Behaviour kept as the code has it:

- `rtrim($sql, ';')` removes every trailing semicolon. One is put back only when the left-trimmed text starts with `BEGIN` in any letter case.
- The `tns` pattern is case-sensitive. `ec` and `in` carry the `i` modifier.
- PCRE's `$` has no `D` modifier, so it also matches before a final newline. Every pattern therefore accepts its string followed by one `"\n"`.
- PHP strings are bytes and the patterns have no `u` modifier. Strings are modelled as characters; the one place where that differs is the single-byte class in `(:[^\/])` of the `ec` pattern, which therefore accepts only an ASCII character after the colon (a non-ASCII character is several UTF-8 bytes).
- `connect` builds a DSN only when the DSN is `empty()` and not valid.
  - A DSN of `"0"` is `empty()` but a valid instance name, so it is kept.
- In `buildDSN`, the last attempt loops over `$valid_dsns`. That variable is never defined, so the loop tests nothing, and the DSN ends up `''` on that path even when the database field holds a valid DSN.
  - The comment at `Connection.php:773-774` announces that the database field is validated as a DSN on its own, but no code does so.
- `_createTable`:
  - `createTableIfStr` is a string, so the branch that consults `tableExists` never runs.
  - `ifNotExists` has no effect: every CREATE TABLE is wrapped in the PL/SQL block that ignores error -955.
- `_dropTable` leaves the existence guard to the base class, since `dropTableIfStr` is `false`. It only appends ` PURGE` or ` CASCADE CONSTRAINTS PURGE` to a non-empty statement.
- `_alterTable` prefixes a rendered column with `"\n\t"` twice: once when it stores the literal, once when it uses it.
- `trim($sql, ',')` in `storedProcedure` removes every trailing comma. A last parameter name that is empty or ends in a comma therefore loses more than the separator.
- `%[^.]` in `sscanf` needs at least one character. With a leading dot, the owner stays unassigned (empty once upper-cased) and the table name is left as it was. `%s` skips leading blanks and stops at the next one.
- `OCI_B_CURSOR` is the integer 116 (SQLT_RSET); a parameter is a cursor only if its type is exactly that integer (`===`).

## Model

| member | source | states |
|---|---|---|
| Dsn.IsValidDsn | system/Database/OCI8/Connection.php:136-147 | A DSN is valid when one of the TNS, easy-connect and instance-name patterns of lines 79-84 matches it. These patterns are defined by `Dsn.MatchesTns`, `Dsn.MatchesEasyConnect` and `Dsn.MatchesInstance`. The empty string is never valid. |
| Dsn.NonAsciiAfterColon | system/Database/OCI8/Connection.php:82 | The `(:[^\/])` group takes one byte: a colon followed by a non-ASCII character such as `é` is rejected, and by an ASCII one accepted. |
| Dsn.SampleDescriptorIsTns | system/Database/OCI8/Connection.php:80 | A descriptor with two parenthesised groups, `(DESCRIPTION=(A=1)(B=2))`, has the TNS shape (`Dsn.MatchesTns`). |
| Dsn.SampleEasyConnect | system/Database/OCI8/Connection.php:82 | `myhost:1521/orcl` has the easy-connect shape (`Dsn.MatchesEasyConnect`): host with port, then a service name. |
| Dsn.BuildDsn | system/Database/OCI8/Connection.php:737-796 | The chosen DSN is empty or valid. The hostname loses its blanks and the port is untouched. The database field is blank-stripped only on the path that ends with an empty DSN. |
| Dsn.BuildDsnShape | system/Database/OCI8/Connection.php:737-796 | The DSN is empty, the blank-free hostname, or the easy-connect string built from hostname, port and database. |
| Dsn.BuildDsnTns | system/Database/OCI8/Connection.php:741-748 | A TNS descriptor in the hostname field becomes the DSN verbatim, whatever port and database say. |
| Dsn.BuildDsnEasyConnect | system/Database/OCI8/Connection.php:750-771 | A plain hostname with a numeric port and/or a database gives `host[:port][/database]` whenever that string is an easy-connect string. |
| Dsn.TnsHostnameExample | system/Database/OCI8/Connection.php:741-748 | A hostname holding a descriptor yields that descriptor as the DSN. |
| Dsn.HostPortServiceExample | system/Database/OCI8/Connection.php:750-771 | Hostname `myhost`, port `1521`, database `orcl` yield `myhost:1521/orcl`. |
| Dsn.EmptyConfigExample | system/Database/OCI8/Connection.php:793-795 | With nothing configured the DSN is empty, so the client's environment decides. |
| Dsn.DatabaseOnlyExample | system/Database/OCI8/Connection.php:781-795 | An instance name given only in the database field is not used: the DSN stays empty. |
| Dsn.DatabaseNeverBecomesDsn | system/Database/OCI8/Connection.php:781-795 | When the hostname cannot take a port or service name, the DSN does not depend on the database field. |
| Dsn.CandidateMatchMeansHostMatches | system/Database/OCI8/Connection.php:764-778 | If the built `host:port/db` string is an easy-connect string, the hostname alone is one too. |
| Dsn.BuildDsnStable | system/Database/OCI8/Connection.php:737-796 | Run again on the configuration it left behind, `buildDSN` picks the same DSN and changes nothing further. |
| Dsn.ConnectDsn | system/Database/OCI8/Connection.php:155-160 | A non-empty DSN is used as configured, and so is `"0"`. An empty DSN is replaced by what `buildDSN` produces. |
| Dsn.ConnectDsnValidOrConfigured | system/Database/OCI8/Connection.php:155-160 | The DSN passed to the native connect is the configured one, empty, or valid. |
| Session.Connect | system/Database/OCI8/Connection.php:155-167 | The native call uses the resolved DSN. It is the persistent variant exactly when asked. The charset is passed exactly when it is not `empty()`. |
| Session.NormalizeSql | system/Database/OCI8/Connection.php:252-259 | Only trailing semicolons are removed, all of them. The text ends in one `;` exactly when it is a `BEGIN` block after leading blanks. |
| Session.NormalizeSqlKeepsStatement | system/Database/OCI8/Connection.php:254 | The text before the removed semicolons is the original statement, unchanged. |
| Session.NormalizeSqlIdempotent | system/Database/OCI8/Connection.php:252-259 | Rewriting an already rewritten statement changes nothing. |
| Session.Execute | system/Database/OCI8/Connection.php:250-270 | The statement is executed with the connection's commit mode and prefetch 1000. It is parsed from the rewritten text only when `resetStmtId` is on; otherwise the prepared one runs. A failed parse leaves no statement, and then nothing is returned. The ROWID is bound exactly when the marker occurs in the text. A result is returned exactly when the native execute succeeds on a statement, and it is that statement. |
| Session.TransBegin | system/Database/OCI8/Connection.php:805-810 | Beginning turns auto-commit off, changes nothing else, and reports success. |
| Session.TransCommit | system/Database/OCI8/Connection.php:819-824 | Committing turns auto-commit back on, changes nothing else, and reports what the native commit returned. |
| Session.TransRollback | system/Database/OCI8/Connection.php:833-838 | Rolling back turns auto-commit back on, changes nothing else, and reports what the native rollback returned. |
| Session.EndTransactionRestores | system/Database/OCI8/Connection.php:805-838 | Commit and rollback leave the same connection. Beginning and then ending a transaction returns an auto-committing connection to its earlier state, whether or not the native call succeeded. |
| Session.RunCommitMode | system/Database/OCI8/Connection.php:805-838 | After any sequence of begins, commits, rollbacks and statements, the commit mode is NO_AUTO_COMMIT exactly inside an open transaction, whatever the native commit or rollback returned. |
| Session.ExecuteInsideTransaction | system/Database/OCI8/Connection.php:268 | A statement executed between begin and commit/rollback runs without auto-commit; outside, it commits on success. |
| Session.HasCursor | system/Database/OCI8/Connection.php:590-597 | The call is flagged as returning a cursor exactly when some parameter has its type set to `OCI_B_CURSOR`. |
| Session.NameListIsJoin | system/Database/OCI8/Connection.php:588-592 | In `Session.NameList`, the loop's `name,` pieces are the names joined by commas, plus one comma. |
| Session.CallTextShape | system/Database/OCI8/Connection.php:586-599 | When there are no parameters, or the last parameter name is neither empty nor ends in a comma, the block `Session.CallText` builds is `BEGIN pkg.proc(` + names joined by `,` + `); END;`. |
| Session.StoredProcedure | system/Database/OCI8/Connection.php:579-607 | An empty package or procedure name raises `invalidArgument` with their concatenation. Otherwise the call block is parsed and the parameters are bound. The query runs with `resetStmtId` off and the cursor flag. Afterwards `resetStmtId` is on again. The commit mode and DSN are untouched by `storedProcedure`'s own code; what `query()` itself does to the connection is not modelled (see Left out). |
| Session.ProcedureExecutesPreparedBlock | system/Database/OCI8/Connection.php:601-605 | While the procedure runs, `execute` runs the prepared call block whatever text it is given. |
| Session.WithDefaults | system/Database/OCI8/Connection.php:626-632 | Each of name, value, type and length is set afterwards: one that was not set becomes `''`. Keys that were set, and all other keys, keep their values. |
| Session.BindParams | system/Database/OCI8/Connection.php:617-636 | Without a live statement nothing is bound. Otherwise there is one bind per parameter, in order, each of its four arguments being the parameter's value or `''` when unset. |
| Session.SourceOf | system/Database/OCI8/Connection.php:653-669 | The error comes from the cursor if live, else the statement, else the connection, else the global error. |
| Session.Error | system/Database/OCI8/Connection.php:649-677 | The native error array of the chosen handle is returned as is. When there is none, the code and message are empty strings. |
| Session.ErrorHasCodeAndMessage | system/Database/OCI8/Connection.php:671-676 | When the native layer's error arrays carry `code` and `message`, so does the result, whichever handle is consulted. |
| Catalog.SplitOwner | system/Database/OCI8/Connection.php:343-350 | An undotted name belongs to the connecting user. With a leading dot the owner is empty and the name unchanged. Otherwise the owner is the text before the first dot. The table is the first blank-free token after the dot, preceded only by blanks and followed by a blank or the end. When only blanks follow the dot, the name is unchanged. |
| Catalog.SplitOwnerQualified | system/Database/OCI8/Connection.php:345 | `owner.table`, with a dot-free owner and a blank-free table, splits into exactly those parts. |
| Catalog.FieldQuery | system/Database/OCI8/Connection.php:352-355 | Column data is looked up by the upper-cased owner and the upper-cased table. |
| Catalog.IndexQuery | system/Database/OCI8/Connection.php:410-415 | Index data is looked up by the upper-cased owner and the lower-cased table. |
| Catalog.MaxLength | system/Database/OCI8/Connection.php:370-376 | The length is the character length when positive, else the precision, else (no precision) the storage length. |
| Catalog.DefaultOf | system/Database/OCI8/Connection.php:378-383 | A catalog default is kept. A NOT NULL column without one gets `''`; a nullable column without one gets null. |
| Catalog.FieldData | system/Database/OCI8/Connection.php:341-388 | A failed query raises `failGetFieldData`. Otherwise there is one record per row, in row order. |
| Catalog.MaxLengthExamples | system/Database/OCI8/Connection.php:370-376 | Zero character length with precision 10 gives 10. No precision with storage length 50 gives 50. |
| Catalog.IndexData | system/Database/OCI8/Connection.php:399-444 | A failed query raises `failGetIndexData`. Otherwise the rows are grouped by index. |
| Catalog.GroupIndexes | system/Database/OCI8/Connection.php:424-441 | The grouping has at most one entry per row. |
| Catalog.GroupIndexesSpec | system/Database/OCI8/Connection.php:428-441 | There is one entry per distinct index name, in first-occurrence order, holding that index's columns in row order and the type its first row gives. |
| Catalog.IndexEntriesDistinctAndComplete | system/Database/OCI8/Connection.php:428-441 | No two entries share a name, and every row's index has an entry. |
| Catalog.GroupIndexesCount | system/Database/OCI8/Connection.php:428-441 | Every row adds exactly one column: the entries' columns add up to the number of rows. |
| Catalog.FirstKindIsFirstRow | system/Database/OCI8/Connection.php:430-439 | An index is PRIMARY, UNIQUE or INDEX according to the constraint type of its first row only. |
| Catalog.IndexGroupingExample | system/Database/OCI8/Connection.php:424-441 | Two primary-key rows and one unique-index row give a two-column PRIMARY entry and a one-column UNIQUE entry. |
| Catalog.ForeignKeyData | system/Database/OCI8/Connection.php:454-494 | A failed query raises `failGetForeignKeyData`. Otherwise there is one record per row, in order, carrying all five columns; the table name is used as given. |
| ForgeTypes.AttributeType | system/Database/OCI8/Forge.php:237-267 | Only TYPE and CONSTRAINT can be added or changed; every other attribute keeps its value. |
| ForgeTypes.FallThroughKeepsFirst | system/Database/OCI8/Forge.php:241-252 | Falling through the integer cases keeps the first constraint set: an existing one, else the entry case's length. No other key changes. |
| ForgeTypes.AttributeTypeTable | system/Database/OCI8/Forge.php:237-267 | The mapping is: <br>• TINYINT, SMALLINT, MEDIUMINT, INT/INTEGER and BIGINT become NUMBER with default lengths 3, 5, 7, 11 and 19; <br>• NUMERIC becomes NUMBER; <br>• DATETIME becomes DATE; <br>• TEXT and VARCHAR become VARCHAR2 with default length 255; <br>• other types are untouched. <br>No key but TYPE and CONSTRAINT changes. |
| ForgeTypes.AttributeTypeKeepsConstraint | system/Database/OCI8/Forge.php:241-264 | A constraint that is already set is never overwritten. |
| ForgeTypes.AttributeTypeIdempotent | system/Database/OCI8/Forge.php:237-267 | Mapping an already mapped attribute array changes nothing. |
| ForgeTypes.SmallintExample | system/Database/OCI8/Forge.php:243-254 | A SMALLINT without a constraint becomes NUMBER with constraint 5. |
| Forge.ProcessColumnLayout | system/Database/OCI8/Forge.php:215-224 | By position in the column text that `Forge.ProcessColumn` builds: <br>• the escaped name comes first, then a space; <br>• the type follows; <br>• then the length, unsigned, default and identity clauses; <br>• the null clause comes directly before the unique clause, which ends the text. <br>The length is the sum of the parts' lengths. |
| Forge.ClearNullRemovesOnlyNull | system/Database/OCI8/Forge.php:215-224 | Clearing the null clause cuts exactly that clause out of the column text. The text before and after it stays as it was. |
| Forge.AttributeAutoIncrement | system/Database/OCI8/Forge.php:195-204 | Only the identity slot of the field can change. It holds the identity clause afterwards exactly when the column takes one or already had it. A column that does not take one is unchanged. |
| Forge.IdentityClausePlacement | system/Database/OCI8/Forge.php:195-204 | The identity clause appears between the default and null clauses exactly when AUTO_INCREMENT is `true`, the type mentions NUMBER in any case, and the server is at 12.1 or later. |
| Forge.AdjustNull | system/Database/OCI8/Forge.php:136-147 | Under MODIFY, the null clause is dropped exactly when its wish for NULL (no ` NOT`) equals the column's current nullability. A column the table does not report keeps it. |
| Forge.NullableMap | system/Database/OCI8/Forge.php:132 | The nullability map has exactly the reported column names as keys. |
| Forge.NullableMapLast | system/Database/OCI8/Forge.php:132 | A column's nullability is that of its last report. |
| Forge.AlterTable | system/Database/OCI8/Forge.php:120-183 | DROP never reads the table's columns. ADD/MODIFY/CHANGE fail exactly when reading them fails, with that error. |
| Forge.AlterDropIsParent | system/Database/OCI8/Forge.php:122-125 | DROP returns the base forge's statement untouched. |
| Forge.AlterChangeIsModify | system/Database/OCI8/Forge.php:126-129 | CHANGE produces exactly what MODIFY produces. |
| Forge.AlterNullHandling | system/Database/OCI8/Forge.php:136-157 | Under MODIFY, a rendered field's item is the column text with or without its null clause, as the current nullability decides. Under ADD, fields are rendered as given. |
| Forge.AllFollowUpsOrder | system/Database/OCI8/Forge.php:157-168 | A field's statements start right after those of the fields before it, at the offset their comment and rename counts give. Its COMMENT comes first, then its RENAME. The next field's statements start right after them. |
| Forge.AllFollowUpsFromFront | system/Database/OCI8/Forge.php:134-172 | Read from the front, the follow-ups are the first field's statements and then those of the remaining fields. |
| Forge.PreparedKeepsFollowUps | system/Database/OCI8/Forge.php:136-168 | Dropping null clauses under MODIFY changes none of the COMMENT and RENAME statements. |
| Forge.AllFollowUpsCount | system/Database/OCI8/Forge.php:157-168 | There is one follow-up statement per commented field and per renamed field. ADD renames nothing. |
| Forge.AlterStatementsShape | system/Database/OCI8/Forge.php:131-183 | In the list `Forge.AlterStatements` returns, the ALTER TABLE ... ADD/MODIFY statement comes first. After it come exactly the fields' COMMENT and RENAME statements in field order: one per commented rendered field and, under MODIFY only, one per renamed one. A single item is used bare; any other number is joined by `,` inside parentheses. |
| Forge.ProcessForeignKeys | system/Database/OCI8/Forge.php:367-394 | No registered keys give the empty string. Otherwise the text is that of all keys but the last, followed by the last key's CONSTRAINT clause, so the clauses come in registration order. |
| Forge.ForeignKeysInOrder | system/Database/OCI8/Forge.php:378-391 | No registered keys give the empty string; each registered key appends one CONSTRAINT clause, in registration order. |
| Forge.ForeignKeyActions | system/Database/OCI8/Forge.php:383-389 | ON DELETE is emitted only for CASCADE, SET NULL and NO ACTION. The ON UPDATE action never affects the text. |
| Forge.WrapAsWrittenWithoutQuotes | system/Database/OCI8/Forge.php:60-66 | A statement without single quotes is run exactly by the block as written. |
| Forge.QuotedDefaultBreaksWrapper | system/Database/OCI8/Forge.php:323-326 | A statement with a quoted default ends the block's string literal early as written, and runs intact once quotes are doubled. |
| Forge.WrapEscapedRunsStatement | system/Database/OCI8/Forge.php:60-66 | With quotes doubled, the block's `execute immediate` literal reads back as exactly the statement, followed by the handler that swallows only SQLCODE -955. |
| Forge.CreateColumns | system/Database/OCI8/Forge.php:297-302 | Each column item is `"\n\t"` followed by the field's `_literal` when it has one, and by its `_processColumn` text otherwise. |
| Forge.CreateTableAsWritten | system/Database/OCI8/Forge.php:318-328 | `_createTable` as written: the CREATE TABLE statement built by `Forge.CreateStatement`, pasted verbatim between the block's opening and closing text. |
| Forge.CreateTableAlwaysWrapped | system/Database/OCI8/Forge.php:280-329 | For both versions, `ifNotExists` does not change the output. `CreateTableAsWritten` runs exactly the CREATE TABLE statement when it holds no single quote. `CreateTableEscaped`, with quotes doubled, always runs exactly the statement; its block starts and ends with the wrapper's text, and its handler ignores only SQLCODE -955. |
| Forge.DropTable | system/Database/OCI8/Forge.php:342-356 | An empty base statement stays empty. Otherwise the base statement is kept as the prefix, followed by ` CASCADE CONSTRAINTS PURGE` when cascading and ` PURGE` otherwise. |

## Left out

- Native OCI calls (`oci_connect`, `oci_parse`, `oci_execute`, `oci_bind_by_name`, `oci_error`, `oci_commit`, `oci_rollback`, `oci_set_prefetch`): each is represented by its arguments and an input result.
- The text of the catalog SQL queries: only their lookup keys (owner and table, with their case folding) are modelled. The rows come back through an input function.
- Base-class helpers are inputs or left out:
  - `escapeIdentifiers` and `createTableStr` are inputs of `Forge.Base`;
  - `parent::_alterTable` and `parent::_dropTable` are inputs as their returned text;
  - `_processFields`, `_processPrimaryKeys`, `_processIndexes` and `_createTableAttributes` are inputs as their results.
- `query()` and the result objects of the query builder: `storedProcedure` is modelled up to the statement and binds it hands to `query()`.
- `insertID`, `getVersion`, `reconnect`, `setDatabase`, `_close`, `affectedRows`, `_listTables`, `_listColumns`, `getCursor` and the foreign-key-check toggles are not part of this model. For `getVersion`, only its comparison with 12.1 enters, as a boolean.
- The response cache and the test migration are not part of this model.
- Session.Execute: when `oci_parse` fails, the model records no statement and returns nothing. The PHP errors raised by passing `false` on to `oci_set_prefetch` and `oci_execute` are not modelled.
- Session.Execute: the ROWID bind's output variable and the returned resource are not modelled; only the fact of binding, and whether a statement comes back, are.
- Session.StoredProcedure: the frame clause (commit mode and DSN unchanged) covers `storedProcedure`'s own code only. `query()` is not part of this model. Inside a transaction, a failing call in `query()` can roll the transaction back, and that rollback turns auto-commit back on. No contract here speaks of the connection after `query()`.
- Session.Error: which handles are live resources is an input; the model does not track resource lifetimes.
- Dsn.BuildDsn: the loop over the undefined `$valid_dsns` (`Connection.php:783`) also raises PHP's "undefined variable" and "foreach over null" warnings. An error handler that turns warnings into exceptions (CodeIgniter's does) ends `connect` there. The model takes the silent path, on which the DSN ends up empty.
- Dsn.BuildDsn: the port is modelled as a string only. An integer port from -128 to 255 is read by `ctype_digit` as a character code: port 80 is `'P'` and is dropped, while port 50 is `'2'` and is kept. Other integers are read as their decimal digits.
- Forge.AdjustNull: for a field name the catalog does not report, `$nullableMap[$name]` (`Forge.php:142`) raises an undefined-index warning before yielding null. The model keeps only the null, so the clause is kept; the warning is not modelled.
- Catalog.MaxLength: `CHAR_LENGTH`, `DATA_PRECISION` and `DATA_LENGTH` are modelled as optional integers. The OCI8 extension returns them as strings or null. The `> 0` test at `Connection.php:370` compares such a string with 0 numerically, so a numeric string gives the same choice as its integer. The `max_length` PHP hands back is that string; the model gives its integer value. A non-numeric string is not modelled; Oracle's catalog never returns one in these columns.
- Catalog.SplitOwner: characters are ASCII-classified. `%s` uses the C library's `isspace` set, which is modelled as space, tab, newline, carriage return, vertical tab and form feed.
- Forge.ForeignKeyActions: the `onDelete` action is modelled as a string. The case where it is `false`, and `in_array`'s loose comparison, are not modelled; for strings they agree with strict comparison.
- Case mapping in `strtoupper`/`strtolower` covers ASCII letters only, as PHP 8 does.

## Findings

| source | as written | input that shows it | evidently intended | confidence | as-written member | corrected member |
|---|---|---|---|---|---|---|
| system/Database/OCI8/Forge.php:60-66 | `createTableIfStr` pastes the CREATE TABLE text into the single-quoted literal of `execute immediate` without doubling its single quotes. | A column with a string default, e.g. `CREATE TABLE t (c DEFAULT 'x')`: the literal closes before `x`, and the block no longer runs that statement. | Every `'` in the statement is written as `''`, so the literal reads back as the full statement. | not executed; high that the literal breaks, medium that quoted defaults reach this path | Forge.QuotedDefaultBreaksWrapper | Forge.WrapEscapedRunsStatement |

=== FILE: catalog.dfy ===
/** Schema introspection of the OCI8 connection: the `owner.table` split,
    the catalog queries' lookup keys, and the normalisation of the returned
    rows by `_fieldData`, `_indexData` and `_foreignKeyData`. The catalog
    query is an input: `fetch` returns the rows, or `None` when the query
    fails. */
module Catalog {
  import opened Results
  import opened PhpStrings

  // ---------------------------------------------------------------------
  // sscanf($table, '%[^.].%s', $owner, $table)

  /** The owner and table name a catalog query is made for. */
  datatype Qualified = Qualified(owner: string, table: string)

  /** The characters `%s` skips before and stops at. */
  const ScanSpaces: set<char> := {' ', '\t', '\n', '\r', '\U{000B}', '\U{000C}'}

  /** Index of the first '.', or -1. */
  function FirstDot(s: string): (r: int)
    ensures -1 <= r < |s|
    ensures r == -1 <==> forall i | 0 <= i < |s| :: s[i] != '.'
    ensures r >= 0 ==> s[r] == '.' && forall i | 0 <= i < r :: s[i] != '.'
  {
    if |s| == 0 then -1
    else if s[0] == '.' then 0
    else
      var p := FirstDot(s[1..]);
      assert forall i | 1 <= i < |s| :: s[1..][i - 1] == s[i];
      if p == -1 then -1 else p + 1
  }

  /** The longest prefix with no character of `stop`. */
  function TakeUntil(s: string, stop: set<char>): (r: string)
    ensures |r| <= |s| && r == s[..|r|]
    ensures forall i | 0 <= i < |r| :: r[i] !in stop
    ensures |r| < |s| ==> s[|r|] in stop
  {
    if |s| == 0 || s[0] in stop then "" else [s[0]] + TakeUntil(s[1..], stop)
  }

  /** The owner and table a dotted name is split into. `%[^.]` must read at
      least one character, so a leading '.' assigns nothing: the owner stays
      null (empty once upper-cased) and the table name is unchanged. `%s`
      skips leading blanks and reads up to the next blank; when it reads
      nothing the table name is unchanged. An undotted name belongs to the
      connecting user. */
  function SplitOwner(table: string, username: string): (q: Qualified)
    ensures FirstDot(table) == -1 ==> q == Qualified(username, table)
    ensures FirstDot(table) == 0 ==> q == Qualified("", table)
    ensures FirstDot(table) > 0 ==> q.owner == table[..FirstDot(table)]
    ensures FirstDot(table) > 0 ==> TableAfterDot(table[FirstDot(table) + 1..], table, q.table)
  {
    var dot := FirstDot(table);
    if dot == -1 then Qualified(username, table)
    else if dot == 0 then Qualified("", table)
    else
      var after := table[dot + 1..];
      ScanTokenIsTable(after, table);
      Qualified(table[..dot], if ScanToken(after) == "" then table else ScanToken(after))
  }

  /** The table name `%s` leaves, reading the text `after` the dot of
      `table`: the whole name unchanged when only blanks follow the dot,
      and otherwise the first token read there. */
  predicate TableAfterDot(after: string, table: string, t: string) {
    || (t == table && forall i | 0 <= i < |after| :: after[i] in ScanSpaces)
    || (t != table && exists j | 0 <= j <= |after| :: TokenAt(after, j, t))
  }

  lemma ScanTokenIsTable(after: string, table: string)
    requires |after| < |table|
    ensures TableAfterDot(after, table, if ScanToken(after) == "" then table else ScanToken(after))
  {
    var token := ScanToken(after);
    if token != "" {
      assert TokenAt(after, |after| - |TrimLeft(after, ScanSpaces)|, token);
    }
  }

  /** `%s` reads `token` from `s` at `j`: only blanks come before it, the
      token is non-empty and blank-free, and a blank or the end follows. */
  predicate TokenAt(s: string, j: int, token: string) {
    && 0 <= j && j + |token| <= |s|
    && |token| > 0
    && s[j..j + |token|] == token
    && (forall i | 0 <= i < j :: s[i] in ScanSpaces)
    && (forall i | 0 <= i < |token| :: token[i] !in ScanSpaces)
    && (j + |token| == |s| || s[j + |token|] in ScanSpaces)
  }

  /** What `%s` reads from the text after the '.': blanks skipped, up to
      the next blank. Nothing is read from blanks alone. */
  function ScanToken(s: string): (token: string)
    ensures token == "" ==> forall i | 0 <= i < |s| :: s[i] in ScanSpaces
    ensures token != "" ==> TokenAt(s, |s| - |TrimLeft(s, ScanSpaces)|, token)
  {
    var token := TakeUntil(TrimLeft(s, ScanSpaces), ScanSpaces);
    ScanSkipsBlanks(s);
    ScanReadsToken(s);
    token
  }

  lemma ScanSkipsBlanks(s: string)
    ensures var rest := TrimLeft(s, ScanSpaces);
            && (TakeUntil(rest, ScanSpaces) == "" ==> |rest| == 0)
            && forall i | 0 <= i < |s| - |rest| :: s[i] in ScanSpaces
  {
  }

  lemma ScanReadsToken(s: string)
    ensures var rest := TrimLeft(s, ScanSpaces);
            var token := TakeUntil(rest, ScanSpaces);
            var j := |s| - |rest|;
            && j + |token| <= |s|
            && s[j..j + |token|] == token
            && (j + |token| == |s| || s[j + |token|] in ScanSpaces)
  {
    var rest := TrimLeft(s, ScanSpaces);
    assert s[|s| - |rest|..] == rest;
  }

  /** `owner.name` with a dot-free owner and a blank-free name splits into
      exactly those two parts. */
  lemma {:induction false} SplitOwnerQualified(owner: string, name: string, username: string)
    requires |owner| > 0 && forall i | 0 <= i < |owner| :: owner[i] != '.'
    requires |name| > 0 && forall i | 0 <= i < |name| :: name[i] !in ScanSpaces
    ensures SplitOwner(owner + "." + name, username) == Qualified(owner, name)
  {
    var t := owner + "." + name;
    assert FirstDot(t) == |owner| by {
      assert t[|owner|] == '.';
      assert forall i | 0 <= i < |owner| :: t[i] == owner[i];
    }
    assert t[|owner| + 1..] == name;
    assert TrimLeft(name, ScanSpaces) == name;
    TakeUntilClean(name, ScanSpaces);
    assert t[..|owner|] == owner;
  }

  lemma {:induction false} TakeUntilClean(s: string, stop: set<char>)
    requires forall i | 0 <= i < |s| :: s[i] !in stop
    ensures TakeUntil(s, stop) == s
  {
    if |s| > 0 {
      TakeUntilClean(s[1..], stop);
    }
  }

  /** The lookups the three catalog queries make. Column data matches owner
      and table upper-cased; index data matches the owner upper-cased but
      the table lower-cased; foreign-key data takes the name as given. */
  datatype CatalogQuery =
    | ColumnsOf(owner: string, table: string)
    | IndexesOf(owner: string, table: string)
    | ForeignKeysOf(table: string)

  function FieldQuery(table: string, username: string): (q: CatalogQuery)
    ensures q.ColumnsOf?
    ensures q.owner == ToUpper(SplitOwner(table, username).owner)
    ensures q.table == ToUpper(SplitOwner(table, username).table)
  {
    var s := SplitOwner(table, username);
    ColumnsOf(ToUpper(s.owner), ToUpper(s.table))
  }

  function IndexQuery(table: string, username: string): (q: CatalogQuery)
    ensures q.IndexesOf?
    ensures q.owner == ToUpper(SplitOwner(table, username).owner)
    ensures q.table == ToLower(SplitOwner(table, username).table)
  {
    var s := SplitOwner(table, username);
    IndexesOf(ToUpper(s.owner), ToLower(s.table))
  }

  // ---------------------------------------------------------------------
  // _fieldData

  /** One ALL_TAB_COLUMNS row; SQL NULL is `None`. */
  datatype ColumnRow = ColumnRow(
    columnName: string,
    dataType: string,
    charLength: Option<int>,
    dataPrecision: Option<int>,
    dataLength: Option<int>,
    dataDefault: Option<string>,
    nullable: string)

  datatype FieldInfo = FieldInfo(name: string, dataType: string, maxLength: Option<int>,
                                 default: Option<string>, nullable: bool)

  predicate PositiveCharLength(row: ColumnRow) {
    row.charLength.Some? && row.charLength.value > 0
  }

  /** The column length: the character length when positive, else the
      numeric precision, else (precision NULL) the storage length. */
  function MaxLength(row: ColumnRow): (r: Option<int>)
    ensures PositiveCharLength(row) ==> r == row.charLength
    ensures !PositiveCharLength(row) && row.dataPrecision.Some? ==> r == row.dataPrecision
    ensures !PositiveCharLength(row) && row.dataPrecision.None? ==> r == row.dataLength
  {
    var length := if PositiveCharLength(row) then row.charLength else row.dataPrecision;
    if length.None? then row.dataLength else length
  }

  /** A NOT NULL column without a catalog default gets '' as its default. */
  function DefaultOf(row: ColumnRow): (r: Option<string>)
    ensures row.dataDefault.Some? ==> r == row.dataDefault
    ensures row.dataDefault.None? ==> (r == Some("") <==> row.nullable == "N")
    ensures row.dataDefault.None? && row.nullable != "N" ==> r == None
  {
    if row.dataDefault.None? && row.nullable == "N" then Some("") else row.dataDefault
  }

  function FieldOf(row: ColumnRow): (f: FieldInfo)
    ensures f.name == row.columnName && f.dataType == row.dataType
    ensures f.nullable <==> row.nullable == "Y"
  {
    FieldInfo(row.columnName, row.dataType, MaxLength(row), DefaultOf(row), row.nullable == "Y")
  }

  /** `_fieldData`: raises when the catalog query fails, otherwise one
      record per row in row order. */
  function FieldData(table: string, username: string, fetch: CatalogQuery -> Option<seq<ColumnRow>>)
    : (r: Result<seq<FieldInfo>>)
    ensures fetch(FieldQuery(table, username)).None? <==> r.Failure?
    ensures r.Failure? ==> r.error == FailGetFieldData
    ensures r.Success? ==> var rows := fetch(FieldQuery(table, username)).value;
              && |r.value| == |rows|
              && forall i | 0 <= i < |rows| :: r.value[i] == FieldOf(rows[i])
  {
    match fetch(FieldQuery(table, username))
    case None => Failure(FailGetFieldData)
    case Some(rows) => Success(seq(|rows|, i requires 0 <= i < |rows| => FieldOf(rows[i])))
  }

  /** Sample rows: character length 0 with precision 10 gives 10; with
      precision NULL and storage length 50 it gives 50. */
  lemma MaxLengthExamples()
    ensures MaxLength(ColumnRow("A", "NUMBER", Some(0), Some(10), Some(22), None, "Y")) == Some(10)
    ensures MaxLength(ColumnRow("B", "RAW", Some(0), None, Some(50), None, "Y")) == Some(50)
  {
  }

  // ---------------------------------------------------------------------
  // _indexData

  /** One ALL_IND_COLUMNS row left-joined with USER_CONSTRAINTS. */
  datatype IndexRow = IndexRow(indexName: string, constraintType: Option<string>, columnName: string)

  datatype IndexType = Primary | Unique | Index

  datatype IndexInfo = IndexInfo(name: string, fields: seq<string>, indexType: IndexType)

  function KindOf(constraintType: Option<string>): IndexType {
    if constraintType == Some("P") then Primary
    else if constraintType == Some("U") then Unique
    else Index
  }

  /** Position of the entry for `name`, or -1. */
  function Position(acc: seq<IndexInfo>, name: string): (r: int)
    ensures -1 <= r < |acc|
    ensures r == -1 <==> forall j | 0 <= j < |acc| :: acc[j].name != name
    ensures r >= 0 ==> acc[r].name == name
  {
    if |acc| == 0 then -1
    else if acc[0].name == name then 0
    else
      var p := Position(acc[1..], name);
      assert forall j | 1 <= j < |acc| :: acc[1..][j - 1] == acc[j];
      if p == -1 then -1 else p + 1
  }

  /** One loop step: append the column to the entry of its index, or open
      an entry typed by this row's constraint type. */
  function AddRow(acc: seq<IndexInfo>, row: IndexRow): seq<IndexInfo> {
    var p := Position(acc, row.indexName);
    if p >= 0 then acc[p := acc[p].(fields := acc[p].fields + [row.columnName])]
    else acc + [IndexInfo(row.indexName, [row.columnName], KindOf(row.constraintType))]
  }

  /** `_indexData` on the rows of a successful query. */
  function GroupIndexes(rows: seq<IndexRow>): (r: seq<IndexInfo>)
    ensures |r| <= |rows|
    decreases |rows|
  {
    if |rows| == 0 then [] else AddRow(GroupIndexes(rows[..|rows| - 1]), rows[|rows| - 1])
  }

  /** `_indexData`: raises when the catalog query fails. */
  function IndexData(table: string, username: string, fetch: CatalogQuery -> Option<seq<IndexRow>>)
    : (r: Result<seq<IndexInfo>>)
    ensures fetch(IndexQuery(table, username)).None? <==> r.Failure?
    ensures r.Failure? ==> r.error == FailGetIndexData
    ensures r.Success? ==> r.value == GroupIndexes(fetch(IndexQuery(table, username)).value)
  {
    match fetch(IndexQuery(table, username))
    case None => Failure(FailGetIndexData)
    case Some(rows) => Success(GroupIndexes(rows))
  }

  // Reference definitions the grouping is checked against

  /** The index name of every row, in row order. */
  function RowNames(rows: seq<IndexRow>): (r: seq<string>)
    ensures |r| == |rows|
    ensures forall i | 0 <= i < |rows| :: r[i] == rows[i].indexName
  {
    seq(|rows|, i requires 0 <= i < |rows| => rows[i].indexName)
  }

  /** The distinct names, each at its first occurrence. */
  function Dedup(names: seq<string>): seq<string>
    decreases |names|
  {
    if |names| == 0 then []
    else
      var d := Dedup(names[..|names| - 1]);
      if names[|names| - 1] in d then d else d + [names[|names| - 1]]
  }

  /** The columns of index `name`, in row order. */
  function IndexColumns(rows: seq<IndexRow>, name: string): seq<string>
    decreases |rows|
  {
    if |rows| == 0 then []
    else IndexColumns(rows[..|rows| - 1], name)
         + (if rows[|rows| - 1].indexName == name then [rows[|rows| - 1].columnName] else [])
  }

  /** The type the first row of index `name` gives it. */
  function FirstKind(rows: seq<IndexRow>, name: string): IndexType
    decreases |rows|
  {
    if |rows| == 0 then Index
    else if name in RowNames(rows[..|rows| - 1]) then FirstKind(rows[..|rows| - 1], name)
    else KindOf(rows[|rows| - 1].constraintType)
  }

  /** Total number of columns over all entries. */
  function TotalFields(acc: seq<IndexInfo>): nat
    decreases |acc|
  {
    if |acc| == 0 then 0 else |acc[0].fields| + TotalFields(acc[1..])
  }

  /** The grouping as `_indexData` is meant to produce it: one entry per
      distinct index name in first-occurrence order, with that index's
      columns in row order and the type given by its first row. */
  predicate GroupedAsSpecified(rows: seq<IndexRow>, r: seq<IndexInfo>) {
    var names := Dedup(RowNames(rows));
    && |r| == |names|
    && forall j | 0 <= j < |r| ::
         && r[j].name == names[j]
         && r[j].fields == IndexColumns(rows, names[j])
         && r[j].indexType == FirstKind(rows, names[j])
  }

  lemma {:induction false} DedupMembership(names: seq<string>)
    ensures forall x :: x in Dedup(names) <==> x in names
    decreases |names|
  {
    if |names| > 0 {
      var init := names[..|names| - 1];
      DedupMembership(init);
      assert names == init + [names[|names| - 1]];
    }
  }

  lemma RowNamesSnoc(init: seq<IndexRow>, last: IndexRow)
    ensures RowNames(init + [last]) == RowNames(init) + [last.indexName]
    ensures (init + [last])[..|init|] == init
  {
    assert (init + [last])[..|init|] == init;
  }

  /** One loop step keeps the grouping as specified. */
  lemma {:induction false} AddRowSpec(init: seq<IndexRow>, last: IndexRow, r0: seq<IndexInfo>)
    requires GroupedAsSpecified(init, r0)
    ensures GroupedAsSpecified(init + [last], AddRow(r0, last))
  {
    var rows := init + [last];
    RowNamesSnoc(init, last);
    DedupMembership(RowNames(init));
    var names0 := Dedup(RowNames(init));
    var names := Dedup(RowNames(rows));
    var r := AddRow(r0, last);
    var p := Position(r0, last.indexName);
    if p >= 0 {
      assert last.indexName in names0;
      assert names == names0;
      forall j | 0 <= j < |r|
        ensures r[j].name == names[j]
        ensures r[j].fields == IndexColumns(rows, names[j])
        ensures r[j].indexType == FirstKind(rows, names[j])
      {
        assert names0[j] in RowNames(init);
        assert IndexColumns(rows, names[j])
               == IndexColumns(init, names[j]) + (if last.indexName == names[j] then [last.columnName] else []);
        if j != p {
          assert r0[j].name != r0[p].name by {
            DedupDistinct(RowNames(init));
          }
        }
      }
    } else {
      assert last.indexName !in names0;
      assert names == names0 + [last.indexName];
      assert IndexColumns(init, last.indexName) == [] by {
        IndexColumnsAbsent(init, last.indexName);
      }
      forall j | 0 <= j < |r|
        ensures r[j].name == names[j]
        ensures r[j].fields == IndexColumns(rows, names[j])
        ensures r[j].indexType == FirstKind(rows, names[j])
      {
        assert IndexColumns(rows, names[j])
               == IndexColumns(init, names[j]) + (if last.indexName == names[j] then [last.columnName] else []);
        if j < |r0| {
          assert names0[j] in RowNames(init);
        }
      }
    }
  }

  lemma {:induction false} IndexColumnsAbsent(rows: seq<IndexRow>, name: string)
    requires name !in RowNames(rows)
    ensures IndexColumns(rows, name) == []
    decreases |rows|
  {
    if |rows| > 0 {
      var init := rows[..|rows| - 1];
      assert name !in RowNames(init) by {
        assert forall k | 0 <= k < |init| :: init[k] == rows[k];
      }
      IndexColumnsAbsent(init, name);
    }
  }

  /** `_indexData` groups as specified. */
  lemma {:induction false} GroupIndexesSpec(rows: seq<IndexRow>)
    ensures GroupedAsSpecified(rows, GroupIndexes(rows))
    decreases |rows|
  {
    if |rows| > 0 {
      var init, last := rows[..|rows| - 1], rows[|rows| - 1];
      GroupIndexesSpec(init);
      AddRowSpec(init, last, GroupIndexes(init));
      assert rows == init + [last];
    }
  }

  /** The first-occurrence list names every index once. */
  lemma {:induction false} DedupDistinct(names: seq<string>)
    ensures forall j, k | 0 <= j < k < |Dedup(names)| :: Dedup(names)[j] != Dedup(names)[k]
    decreases |names|
  {
    if |names| > 0 {
      DedupDistinct(names[..|names| - 1]);
    }
  }

  /** Entry names are distinct, and every index of the rows has an entry. */
  lemma IndexEntriesDistinctAndComplete(rows: seq<IndexRow>)
    ensures var r := GroupIndexes(rows);
            && (forall j, k | 0 <= j < k < |r| :: r[j].name != r[k].name)
            && (forall i | 0 <= i < |rows| :: exists j | 0 <= j < |r| :: r[j].name == rows[i].indexName)
  {
    var r := GroupIndexes(rows);
    GroupIndexesSpec(rows);
    DedupDistinct(RowNames(rows));
    DedupMembership(RowNames(rows));
    forall i | 0 <= i < |rows| ensures exists j | 0 <= j < |r| :: r[j].name == rows[i].indexName {
      assert rows[i].indexName in Dedup(RowNames(rows)) by {
        assert RowNames(rows)[i] == rows[i].indexName;
      }
      var j :| 0 <= j < |r| && Dedup(RowNames(rows))[j] == rows[i].indexName;
    }
  }

  lemma {:induction false} TotalFieldsAppend(acc: seq<IndexInfo>, e: IndexInfo)
    ensures TotalFields(acc + [e]) == TotalFields(acc) + |e.fields|
    decreases |acc|
  {
    if |acc| > 0 {
      assert (acc + [e])[1..] == acc[1..] + [e];
      TotalFieldsAppend(acc[1..], e);
    } else {
      assert acc + [e] == [e];
    }
  }

  lemma {:induction false} TotalFieldsUpdate(acc: seq<IndexInfo>, p: nat, e: IndexInfo)
    requires p < |acc|
    ensures TotalFields(acc[p := e]) == TotalFields(acc) - |acc[p].fields| + |e.fields|
    decreases |acc|
  {
    if p > 0 {
      assert acc[p := e][1..] == acc[1..][p - 1 := e];
      TotalFieldsUpdate(acc[1..], p - 1, e);
    } else {
      assert acc[p := e][1..] == acc[1..];
    }
  }

  /** Every row contributes exactly one field: the entries' fields add up
      to the number of rows. */
  lemma {:induction false} GroupIndexesCount(rows: seq<IndexRow>)
    ensures TotalFields(GroupIndexes(rows)) == |rows|
    decreases |rows|
  {
    if |rows| > 0 {
      var init, last := rows[..|rows| - 1], rows[|rows| - 1];
      GroupIndexesCount(init);
      var r0 := GroupIndexes(init);
      var p := Position(r0, last.indexName);
      if p >= 0 {
        TotalFieldsUpdate(r0, p, r0[p].(fields := r0[p].fields + [last.columnName]));
      } else {
        TotalFieldsAppend(r0, IndexInfo(last.indexName, [last.columnName], KindOf(last.constraintType)));
      }
    }
  }

  /** An index takes its type from the first row that names it, whatever
      constraint types later rows of that index carry. */
  lemma {:induction false} FirstKindIsFirstRow(rows: seq<IndexRow>, i: nat)
    requires i < |rows|
    requires forall k | 0 <= k < i :: rows[k].indexName != rows[i].indexName
    ensures FirstKind(rows, rows[i].indexName) == KindOf(rows[i].constraintType)
    decreases |rows|
  {
    var init := rows[..|rows| - 1];
    if i < |rows| - 1 {
      assert RowNames(init)[i] == rows[i].indexName;
      assert init[i] == rows[i];
      FirstKindIsFirstRow(init, i);
    } else {
      assert rows[i].indexName !in RowNames(init);
    }
  }

  /** Two columns of a primary key and one of a unique index. */
  lemma IndexGroupingExample()
    ensures GroupIndexes([IndexRow("PK", Some("P"), "colA"), IndexRow("PK", Some("P"), "colB"),
                          IndexRow("UX", Some("U"), "colC")])
            == [IndexInfo("PK", ["colA", "colB"], Primary), IndexInfo("UX", ["colC"], Unique)]
  {
    var rows := [IndexRow("PK", Some("P"), "colA"), IndexRow("PK", Some("P"), "colB"),
                 IndexRow("UX", Some("U"), "colC")];
    var pk1 := [IndexInfo("PK", ["colA"], Primary)];
    var pk2 := [IndexInfo("PK", ["colA", "colB"], Primary)];
    assert rows[..2][..1] == [rows[0]];
    assert GroupIndexes([rows[0]][..0]) == [];
    assert GroupIndexes(rows[..2][..1]) == pk1;
    assert Position(pk1, "PK") == 0;
    assert GroupIndexes(rows[..2]) == AddRow(pk1, rows[1]);
    assert pk1[0].fields + ["colB"] == ["colA", "colB"];
    assert AddRow(pk1, rows[1]) == pk2;
    assert Position(pk2, "UX") == -1;
    assert GroupIndexes(rows) == AddRow(pk2, rows[2]);
  }

  // ---------------------------------------------------------------------
  // _foreignKeyData

  datatype ForeignKeyRow = ForeignKeyRow(constraintName: string, tableName: string, columnName: string,
                                         foreignTableName: string, foreignColumnName: string)

  datatype ForeignKeyInfo = ForeignKeyInfo(constraintName: string, tableName: string, columnName: string,
                                           foreignTableName: string, foreignColumnName: string)

  function ForeignKeyOf(row: ForeignKeyRow): ForeignKeyInfo {
    ForeignKeyInfo(row.constraintName, row.tableName, row.columnName, row.foreignTableName, row.foreignColumnName)
  }

  /** `_foreignKeyData`: raises when the catalog query fails, otherwise
      one record per row, in row order, carrying all five columns. The
      table name is used as given: no owner split, no case folding. */
  function ForeignKeyData(table: string, fetch: CatalogQuery -> Option<seq<ForeignKeyRow>>)
    : (r: Result<seq<ForeignKeyInfo>>)
    ensures fetch(ForeignKeysOf(table)).None? <==> r.Failure?
    ensures r.Failure? ==> r.error == FailGetForeignKeyData
    ensures r.Success? ==> var rows := fetch(ForeignKeysOf(table)).value;
              && |r.value| == |rows|
              && forall i | 0 <= i < |rows| ::
                   && r.value[i].constraintName == rows[i].constraintName
                   && r.value[i].tableName == rows[i].tableName
                   && r.value[i].columnName == rows[i].columnName
                   && r.value[i].foreignTableName == rows[i].foreignTableName
                   && r.value[i].foreignColumnName == rows[i].foreignColumnName
  {
    match fetch(ForeignKeysOf(table))
    case None => Failure(FailGetForeignKeyData)
    case Some(rows) => Success(seq(|rows|, i requires 0 <= i < |rows| => ForeignKeyOf(rows[i])))
  }
}

=== FILE: dsn.dfy ===
/** Connection-string resolution of the OCI8 connection: the three accepted
    DSN shapes (`validDSNs`), the validity test `isValidDSN`, the fallback
    chain of `buildDSN`, and the decision in `connect` to build a DSN at all.

    The patterns are recognised by hand-written predicates. PCRE's `$` (no
    `D` modifier) also matches just before a final newline, so each pattern
    accepts a string or that string followed by one "\n". */
module Dsn {
  import opened PhpStrings
  import opened PhpValues

  // ---------------------------------------------------------------------
  // Character classes (the `i` modifier folds ASCII letters)

  predicate IsAlnum(c: char) {
    'a' <= c <= 'z' || 'A' <= c <= 'Z' || '0' <= c <= '9'
  }

  /** `[a-z0-9$_]` under `/i` */
  predicate IsServiceChar(c: char) {
    IsAlnum(c) || c == '$' || c == '_'
  }

  /** `[a-z0-9.:_-]` under `/i` */
  predicate IsHostChar(c: char) {
    IsAlnum(c) || c == '.' || c == ':' || c == '_' || c == '-'
  }

  // ---------------------------------------------------------------------
  // 'in': /^[a-z0-9$_]+$/i — an instance name from tnsnames.ora

  predicate InstanceName(s: string) {
    |s| > 0 && forall i | 0 <= i < |s| :: IsServiceChar(s[i])
  }

  predicate MatchesInstance(s: string) {
    InstanceName(s) || (|s| > 0 && s[|s| - 1] == '\n' && InstanceName(s[..|s| - 1]))
  }

  // ---------------------------------------------------------------------
  // 'tns': /^\(DESCRIPTION=(\(.+\)){2,}\)$/ — case-sensitive

  const DescriptionOpen: string := "(DESCRIPTION="

  predicate NoNewline(s: string) {
    forall i | 0 <= i < |s| :: s[i] != '\n'
  }

  /** `s[..j]` is one `\(.+\)` group. */
  predicate GroupEndsAt(s: string, j: int) {
    3 <= j <= |s| && s[0] == '(' && s[j - 1] == ')' && NoNewline(s[1..j - 1])
  }

  /** `s` is a sequence of at least `k` groups `\(.+\)`. */
  predicate Groups(s: string, k: nat)
    decreases |s|
  {
    if |s| == 0 then k == 0
    else exists j | 3 <= j <= |s| :: GroupEndsAt(s, j) && Groups(s[j..], if k == 0 then 0 else k - 1)
  }

  predicate TnsDescriptor(s: string) {
    && |s| > |DescriptionOpen|
    && s[..|DescriptionOpen|] == DescriptionOpen
    && s[|s| - 1] == ')'
    && Groups(s[|DescriptionOpen|..|s| - 1], 2)
  }

  predicate MatchesTns(s: string) {
    TnsDescriptor(s) || (|s| > 0 && s[|s| - 1] == '\n' && TnsDescriptor(s[..|s| - 1]))
  }

  // ---------------------------------------------------------------------
  // 'ec': /^(\/\/)?[a-z0-9.:_-]+(:[1-9][0-9]{0,4})?(\/[a-z0-9$_]+)?(:[^\/])?(\/[a-z0-9$_]+)?$/i
  //
  // The optional port group only holds host characters, so host plus port
  // is exactly a non-empty run of host characters. The `(\/\/)?` group must
  // be taken when the text starts with "//", since '/' is no host character.

  predicate HostChars(s: string) {
    |s| > 0 && forall i | 0 <= i < |s| :: IsHostChar(s[i])
  }

  /** `\/[a-z0-9$_]+` */
  predicate ServiceSegment(s: string) {
    |s| >= 2 && s[0] == '/' && forall i | 1 <= i < |s| :: IsServiceChar(s[i])
  }

  /** `:[^\/]`. PHP strings are bytes and the pattern has no `u`
      modifier, so the class takes one byte: a character outside ASCII is
      several bytes in UTF-8, and what follows its first byte matches no
      later part of the pattern. */
  predicate ColonSegment(s: string) {
    |s| == 2 && s[0] == ':' && s[1] != '/' && s[1] < '\U{80}'
  }

  /** `u` is `(\/svc)?` `u[..a]`, `(:x)?` `u[a..b]`, `(\/svc)?` `u[b..]`. */
  predicate TailSplit(u: string, a: int, b: int) {
    && 0 <= a <= b <= |u|
    && (a == 0 || ServiceSegment(u[..a]))
    && (b == a || ColonSegment(u[a..b]))
    && (b == |u| || ServiceSegment(u[b..]))
  }

  predicate EasyConnectTail(u: string) {
    exists a, b | 0 <= a <= b <= |u| :: TailSplit(u, a, b)
  }

  /** `t[..i]` is the host (and port) part, `t[i..]` the optional rest. */
  predicate HostSplit(t: string, i: int) {
    1 <= i <= |t| && HostChars(t[..i]) && EasyConnectTail(t[i..])
  }

  predicate EasyConnectBody(t: string) {
    exists i | 1 <= i <= |t| :: HostSplit(t, i)
  }

  predicate EasyConnect(s: string) {
    if |s| >= 2 && s[..2] == "//" then EasyConnectBody(s[2..]) else EasyConnectBody(s)
  }

  predicate MatchesEasyConnect(s: string) {
    EasyConnect(s) || (|s| > 0 && s[|s| - 1] == '\n' && EasyConnect(s[..|s| - 1]))
  }

  /** `isValidDSN()`: one of the three patterns matches. The empty string
      is no DSN of any shape. */
  predicate IsValidDsn(dsn: string)
    ensures IsValidDsn(dsn) ==> dsn != ""
  {
    assert dsn == "" ==> !MatchesTns(dsn) && !EasyConnectBody(dsn);
    MatchesTns(dsn) || MatchesEasyConnect(dsn) || MatchesInstance(dsn)
  }

  // ---------------------------------------------------------------------
  // buildDSN

  /** The configuration fields `buildDSN` reads and rewrites. */
  datatype Config = Config(hostname: string, port: string, database: string)

  /** The DSN chosen and the configuration as `buildDSN` leaves it. */
  datatype Built = Built(dsn: string, config: Config)

  /** The characters `buildDSN` deletes from hostname and database. */
  const Blanks: set<char> := {'\n', '\r', '\t', ' '}

  /** `:port` when the port is non-empty and all digits. */
  function PortPart(port: string): string {
    if !EmptyString(port) && AllDigits(port) then ":" + port else ""
  }

  /** `/database` with leading slashes of the database removed. */
  function DatabasePart(database: string): string {
    if database != "" then "/" + TrimLeft(database, {'/'}) else ""
  }

  /** A hostname that may take a port and a service name. */
  predicate EasyConnectableHost(host: string) {
    host != "" && (forall i | 0 <= i < |host| :: host[i] != '/' && host[i] != ':')
  }

  /** The easy-connect string `buildDSN` tries from the three fields. */
  function Candidate(host: string, port: string, database: string): string {
    host + PortPart(port) + DatabasePart(database)
  }

  /** `buildDSN()`: the first rule that matches wins.
      1. the blank-free hostname is a TNS descriptor;
      2. the hostname takes a port and/or service name and the result is
         an easy-connect string;
      3. the hostname alone is an easy-connect string or an instance name;
      4. otherwise the DSN is left empty. The database field is
         blank-stripped on this path, but the loop meant to test it
         iterates over an undefined variable and tests nothing. */
  function BuildDsn(c: Config): (b: Built)
    ensures b.dsn == "" || IsValidDsn(b.dsn)
    ensures b.config.hostname == RemoveChars(c.hostname, Blanks)
    ensures b.config.port == c.port
    ensures b.config.database == c.database || b.config.database == RemoveChars(c.database, Blanks)
    ensures b.dsn != "" ==> b.config.database == c.database
  {
    var host := RemoveChars(c.hostname, Blanks);
    var config := c.(hostname := host);
    var candidate := Candidate(host, c.port, c.database);
    if MatchesTns(host) then
      Built(host, config)
    else if EasyConnectableHost(host) && (PortPart(c.port) != "" || DatabasePart(c.database) != "")
            && MatchesEasyConnect(candidate) then
      Built(candidate, config)
    else if MatchesEasyConnect(host) || MatchesInstance(host) then
      Built(host, config)
    else
      Built("", config.(database := RemoveChars(c.database, Blanks)))
  }

  /** The DSN is one of: empty, the blank-free hostname, or the
      easy-connect string built from hostname, port and database. */
  lemma BuildDsnShape(c: Config)
    ensures var host := RemoveChars(c.hostname, Blanks);
            var dsn := BuildDsn(c).dsn;
            dsn == "" || dsn == host
            || (EasyConnectableHost(host) && dsn == Candidate(host, c.port, c.database))
  {
  }

  /** A TNS descriptor in the hostname field becomes the DSN verbatim. */
  lemma BuildDsnTns(c: Config)
    requires MatchesTns(RemoveChars(c.hostname, Blanks))
    ensures BuildDsn(c).dsn == RemoveChars(c.hostname, Blanks)
  {
  }

  /** A plain hostname with a numeric port and/or a database name yields
      `host[:port][/database]` whenever that is an easy-connect string. */
  lemma BuildDsnEasyConnect(c: Config)
    requires var host := RemoveChars(c.hostname, Blanks);
             && !MatchesTns(host)
             && EasyConnectableHost(host)
             && (PortPart(c.port) != "" || DatabasePart(c.database) != "")
             && MatchesEasyConnect(Candidate(host, c.port, c.database))
    ensures BuildDsn(c).dsn == Candidate(RemoveChars(c.hostname, Blanks), c.port, c.database)
  {
  }

  /** When the hostname cannot carry a port or service name, the DSN does
      not depend on the database field at all: the database field is never
      turned into the DSN, however valid it is. */
  lemma {:induction false} DatabaseNeverBecomesDsn(c: Config, otherDatabase: string)
    requires !EasyConnectableHost(RemoveChars(c.hostname, Blanks))
    ensures BuildDsn(c).dsn == BuildDsn(c.(database := otherDatabase)).dsn
  {
  }

  // ---------------------------------------------------------------------
  // Sample configurations

  lemma {:induction false} SampleDescriptorIsTns()
    ensures TnsDescriptor("(DESCRIPTION=(A=1)(B=2))")
  {
    var h := "(DESCRIPTION=(A=1)(B=2))";
    var body := h[|DescriptionOpen|..|h| - 1];
    assert body == "(A=1)(B=2)";
    var second := body[5..];
    assert second == "(B=2)";
    assert second[5..] == "";
    assert GroupEndsAt(second, 5);
    assert Groups(second, 1);
    assert body[5..] == second;
    assert GroupEndsAt(body, 5);
  }

  lemma {:induction false} TnsHostnameExample()
    ensures BuildDsn(Config("(DESCRIPTION=(A=1)(B=2))", "", "")).dsn == "(DESCRIPTION=(A=1)(B=2))"
  {
    var h := "(DESCRIPTION=(A=1)(B=2))";
    assert forall i | 0 <= i < |h| :: h[i] !in Blanks;
    RemoveCharsKeepsClean(h, Blanks);
    SampleDescriptorIsTns();
    BuildDsnTns(Config(h, "", ""));
  }

  lemma {:induction false} SampleEasyConnect()
    ensures EasyConnect("myhost:1521/orcl")
  {
    var s := "myhost:1521/orcl";
    var host, tail := s[..11], s[11..];
    assert host == "myhost:1521";
    assert tail == "/orcl";
    assert ServiceSegment(tail);
    assert TailSplit(tail, 5, 5);
    assert EasyConnectTail(tail);
    assert HostChars(host);
    assert HostSplit(s, 11);
    assert s[..2][0] != '/';
  }

  /** A non-ASCII character after the colon is rejected, as its UTF-8
      bytes are by the byte-wise pattern. */
  lemma NonAsciiAfterColon()
    ensures !ColonSegment(":\U{E9}")
    ensures ColonSegment(":x")
  {
  }

  lemma {:induction false} SampleCandidate()
    ensures Candidate("myhost", "1521", "orcl") == "myhost:1521/orcl"
  {
    assert AllDigits("1521");
    assert PortPart("1521") == ":1521";
    var d := "orcl";
    assert d[0] !in {'/'};
    assert |TrimLeft(d, {'/'})| == |d|;
    assert TrimLeft(d, {'/'}) == d;
    assert DatabasePart(d) == "/orcl";
  }

  lemma {:induction false} SampleHostIsPlain()
    ensures RemoveChars("myhost", Blanks) == "myhost"
    ensures !MatchesTns("myhost")
    ensures EasyConnectableHost("myhost")
  {
    var h := "myhost";
    assert forall i | 0 <= i < |h| :: h[i] !in Blanks;
    RemoveCharsKeepsClean(h, Blanks);
    assert !TnsDescriptor(h) by {
      assert |h| <= |DescriptionOpen|;
    }
    assert h[|h| - 1] != '\n';
  }

  lemma {:induction false} HostPortServiceExample()
    ensures BuildDsn(Config("myhost", "1521", "orcl")).dsn == "myhost:1521/orcl"
  {
    SampleHostIsPlain();
    SampleCandidate();
    SampleEasyConnect();
    BuildDsnEasyConnect(Config("myhost", "1521", "orcl"));
  }

  lemma {:induction false} EmptyConfigExample()
    ensures BuildDsn(Config("", "", "")).dsn == ""
  {
  }

  /** An instance name in the database field is ignored: the DSN stays
      empty. */
  lemma {:induction false} DatabaseOnlyExample()
    ensures BuildDsn(Config("", "", "orcl")).dsn == ""
  {
  }

  // ---------------------------------------------------------------------
  // Running buildDSN again on the configuration it left behind

  /** The part of an easy-connect string after the host starts with '/'
      or ':'. */
  lemma {:induction false} TailStartsWithSeparator(u: string)
    requires |u| > 0 && EasyConnectTail(u)
    ensures u[0] == '/' || u[0] == ':'
  {
    var a, b :| 0 <= a <= b <= |u| && TailSplit(u, a, b);
    if a > 0 {
      assert u[..a][0] == u[0];
    } else if b > a {
      assert u[a..b][0] == u[0];
    } else {
      assert u[b..][0] == u[0];
    }
  }

  /** An easy-connect string that is a plain hostname followed by a port or
      service part makes the hostname an easy-connect string on its own. */
  lemma {:induction false} EasyConnectPrefix(host: string, rest: string)
    requires EasyConnectableHost(host)
    requires |rest| > 0 && (rest[0] == ':' || rest[0] == '/')
    requires EasyConnect(host + rest)
    ensures EasyConnect(host)
  {
    var t := host + rest;
    assert !(|t| >= 2 && t[..2] == "//") by {
      assert t[0] == host[0];
    }
    var i :| 1 <= i <= |t| && HostSplit(t, i);
    if i < |host| {
      TailStartsWithSeparator(t[i..]);
      assert false;
    }
    assert forall k | 0 <= k < |host| :: host[k] == t[..i][k];
    assert HostChars(host);
    assert TailSplit(host[|host|..], 0, 0);
    assert HostSplit(host, |host|);
  }

  /** The same, through the optional final newline PCRE's `$` allows. */
  lemma {:induction false} MatchesEasyConnectPrefix(host: string, rest: string)
    requires EasyConnectableHost(host)
    requires |rest| > 0 && (rest[0] == ':' || rest[0] == '/')
    requires MatchesEasyConnect(host + rest)
    ensures MatchesEasyConnect(host)
  {
    var t := host + rest;
    if EasyConnect(t) {
      EasyConnectPrefix(host, rest);
    } else {
      assert t[|t| - 1] == '\n';
      assert |rest| >= 2;
      var chopped := rest[..|rest| - 1];
      assert t[..|t| - 1] == host + chopped;
      EasyConnectPrefix(host, chopped);
    }
  }

  lemma {:induction false} CandidateMatchMeansHostMatches(host: string, port: string, database: string)
    requires EasyConnectableHost(host)
    requires PortPart(port) != "" || DatabasePart(database) != ""
    requires MatchesEasyConnect(Candidate(host, port, database))
    ensures MatchesEasyConnect(host)
  {
    var rest := PortPart(port) + DatabasePart(database);
    assert Candidate(host, port, database) == host + rest;
    if PortPart(port) != "" {
      assert rest[0] == PortPart(port)[0];
    } else {
      assert rest == DatabasePart(database);
    }
    MatchesEasyConnectPrefix(host, rest);
  }

  /** `buildDSN` is stable: run on the configuration it produced, it picks
      the same DSN and leaves the configuration as it is. */
  lemma {:induction false} BuildDsnStable(c: Config)
    ensures BuildDsn(BuildDsn(c).config) == BuildDsn(c)
  {
    var b := BuildDsn(c);
    var host := RemoveChars(c.hostname, Blanks);
    RemoveCharsKeepsClean(host, Blanks);
    if b.config.database != c.database {
      // the fall-through path: neither the hostname nor the candidate matched
      var db := b.config.database;
      RemoveCharsKeepsClean(db, Blanks);
      assert !(MatchesEasyConnect(host) || MatchesInstance(host));
      if EasyConnectableHost(host) && (PortPart(c.port) != "" || DatabasePart(db) != "")
         && MatchesEasyConnect(Candidate(host, c.port, db)) {
        CandidateMatchMeansHostMatches(host, c.port, db);
        assert false;
      }
    }
  }

  // ---------------------------------------------------------------------
  // connect

  /** The DSN `connect` hands to the native call, with the configuration
      as it is afterwards. `empty()` holds for "" and "0"; "0" is a valid
      instance name, so a DSN of "0" is kept as it is. */
  function ConnectDsn(dsn: string, c: Config): (b: Built)
    ensures !EmptyString(dsn) ==> b == Built(dsn, c)
    ensures dsn == "0" ==> b == Built("0", c)
    ensures dsn == "" ==> b == BuildDsn(c)
  {
    if EmptyString(dsn) && !IsValidDsn(dsn) then BuildDsn(c) else Built(dsn, c)
  }

  /** After `connect`, the DSN is either the configured one or empty or
      valid. */
  lemma ConnectDsnValidOrConfigured(dsn: string, c: Config)
    ensures var d := ConnectDsn(dsn, c).dsn;
            d == dsn || d == "" || IsValidDsn(d)
  {
  }
}

=== FILE: forge.dfy ===
/** DDL generation of the OCI8 forge: the column text of `_processColumn`,
    the statement lists of `_alterTable`, the PL/SQL-wrapped CREATE TABLE
    of `_createTable`, the PURGE suffixes of `_dropTable` and the foreign
    key clauses of `_processForeignKeys`. Identifier escaping, the base
    forge's CREATE TABLE format and the base DROP/ALTER statements are
    inputs. */
module Forge {
  import opened Results
  import opened PhpStrings
  import opened PhpValues
  import opened ForgeTypes
  import Catalog

  /** The uninterpreted pieces of the connection and the base forge. */
  datatype Base = Base(
    escape: string -> string,                         // escapeIdentifiers
    createTableStr: (string, string, string) -> string, // the base CREATE TABLE format
    dbPrefix: string)

  /** A column definition after the base forge has rendered its clauses. */
  datatype Field = Field(
    name: string,
    newName: string,
    typeName: string,
    length: string,
    unsigned: string,
    defaultClause: string,
    autoIncrement: string,
    nullClause: string,
    unique: string,
    comment: string,
    literal: Option<string>)   // `_literal`, or `false`

  // ---------------------------------------------------------------------
  // _processColumn and _attributeAutoIncrement

  /** Everything before the null clause. */
  function ColumnHead(b: Base, f: Field): string {
    b.escape(f.name) + " " + f.typeName + f.length + f.unsigned + f.defaultClause + f.autoIncrement
  }

  /** `_processColumn` */
  function ProcessColumn(b: Base, f: Field): string {
    (b.escape(f.name) + " " + f.typeName) + (f.length + f.unsigned + f.defaultClause + f.autoIncrement)
    + (f.nullClause + f.unique)
  }

  /** The column text is the escaped name and a space, the type, then the
      length, unsigned, default and identity clauses, then the null clause
      directly before the unique clause at the end. */
  lemma ProcessColumnLayout(b: Base, f: Field)
    ensures var r := ProcessColumn(b, f);
            var e := b.escape(f.name);
            var middle := f.length + f.unsigned + f.defaultClause + f.autoIncrement;
            var u := |r| - |f.unique|;
            var n := u - |f.nullClause|;
            && |r| == |e| + 1 + |f.typeName| + |middle| + |f.nullClause| + |f.unique|
            && r[..|e|] == e && r[|e|] == ' '
            && r[|e| + 1..|e| + 1 + |f.typeName|] == f.typeName
            && r[|e| + 1 + |f.typeName|..n] == middle
            && r[n..u] == f.nullClause
            && r[u..] == f.unique
  {
    var head := b.escape(f.name) + " " + f.typeName;
    var middle := f.length + f.unsigned + f.defaultClause + f.autoIncrement;
    var tail := f.nullClause + f.unique;
    ThreeParts(head, middle, tail);
    ThreeParts(b.escape(f.name), " ", f.typeName);
    ThreeParts(f.nullClause, f.unique, "");
    assert tail + "" == tail;
  }

  /** Where the three parts of a concatenation sit. */
  lemma ThreeParts(x: string, y: string, z: string)
    ensures var s := x + y + z;
            && |s| == |x| + |y| + |z|
            && s[..|x|] == x && s[|x|..|x| + |y|] == y && s[|x| + |y|..] == z
  {
  }

  /** The column text is its head followed by the null and unique clauses. */
  lemma ProcessColumnSplit(b: Base, f: Field)
    ensures ProcessColumn(b, f) == ColumnHead(b, f) + f.nullClause + f.unique
  {
    var head := b.escape(f.name) + " " + f.typeName;
    var middle := f.length + f.unsigned + f.defaultClause + f.autoIncrement;
    assert ColumnHead(b, f) == head + middle;
  }

  /** Clearing the null clause cuts exactly that clause out of the column
      text and leaves the text around it as it was. */
  lemma ClearNullRemovesOnlyNull(b: Base, f: Field)
    ensures var r := ProcessColumn(b, f);
            var n := |r| - |f.unique| - |f.nullClause|;
            ProcessColumn(b, f.(nullClause := "")) == r[..n] + r[n + |f.nullClause|..]
  {
    ProcessColumnSplit(b, f);
    ProcessColumnSplit(b, f.(nullClause := ""));
    var r := ProcessColumn(b, f);
    var h := ColumnHead(b, f);
    ThreeParts(h, f.nullClause, f.unique);
  }

  /** `_attributeAutoIncrement`: only the identity slot of the field can
      change, and it holds the identity clause afterwards exactly when the
      column takes one or already had it. */
  function AttributeAutoIncrement(attrs: Attributes, f: Field, versionAtLeast121: bool): (g: Field)
    ensures g.(autoIncrement := f.autoIncrement) == f
    ensures g.autoIncrement == IdentityClause <==> TakesIdentity(attrs, f.typeName, versionAtLeast121) || f.autoIncrement == IdentityClause
    ensures !TakesIdentity(attrs, f.typeName, versionAtLeast121) ==> g == f
  {
    if TakesIdentity(attrs, f.typeName, versionAtLeast121) then f.(autoIncrement := IdentityClause) else f
  }

  /** With no identity clause of its own, a column's text carries the
      identity clause between its default and null clauses exactly when
      AUTO_INCREMENT is `true`, its type mentions NUMBER and the server is
      at 12.1 or later. */
  lemma IdentityClausePlacement(b: Base, attrs: Attributes, f: Field, versionAtLeast121: bool)
    requires f.autoIncrement == ""
    ensures var g := AttributeAutoIncrement(attrs, f, versionAtLeast121);
            var before := b.escape(f.name) + " " + f.typeName + f.length + f.unsigned + f.defaultClause;
            && (TakesIdentity(attrs, f.typeName, versionAtLeast121) ==>
                  ProcessColumn(b, g) == before + IdentityClause + f.nullClause + f.unique)
            && (!TakesIdentity(attrs, f.typeName, versionAtLeast121) ==>
                  ProcessColumn(b, g) == before + f.nullClause + f.unique)
  {
    ProcessColumnSplit(b, AttributeAutoIncrement(attrs, f, versionAtLeast121));
  }

  // ---------------------------------------------------------------------
  // _alterTable

  datatype Alteration =
    | Add(fields: seq<Field>)
    | Modify(fields: seq<Field>)
    | Change(fields: seq<Field>)
    | Drop(columns: seq<string>)

  /** The parent's single statement (DROP) or the ordered statements to
      run one after the other. */
  datatype AlterResult = ParentStatement(sql: string) | Statements(sqls: seq<string>)

  /** A null clause asks for NULL unless it contains " NOT". */
  predicate WantsNull(f: Field) {
    !Contains(f.nullClause, " NOT")
  }

  /** Under MODIFY, a null clause that repeats the column's current
      nullability is dropped. A column missing from the map never equals
      a boolean, so its clause is kept. */
  function AdjustNull(f: Field, nullable: map<string, bool>): (g: Field)
    ensures g == f || g == f.(nullClause := "")
    ensures g.nullClause == "" <==> f.nullClause == "" || (f.name in nullable && WantsNull(f) == nullable[f.name])
  {
    if f.name in nullable && WantsNull(f) == nullable[f.name] then f.(nullClause := "") else f
  }

  /** The text a field contributes to the ALTER statement. A rendered
      column is prefixed by "\n\t" twice: once when it is stored as the
      literal, once when the literal is used. */
  function AlterItem(b: Base, f: Field): string {
    match f.literal
    case Some(l) => "\n\t" + l
    case None => "\n\t" + ("\n\t" + ProcessColumn(b, f))
  }

  function CommentStatement(b: Base, table: string, f: Field): string {
    "COMMENT ON COLUMN " + b.escape(table) + "." + b.escape(f.name) + " IS " + f.comment
  }

  function RenameStatement(b: Base, table: string, f: Field): string {
    "ALTER TABLE " + b.escape(table) + " RENAME COLUMN " + b.escape(f.name) + " TO " + b.escape(f.newName)
  }

  predicate HasComment(f: Field) {
    f.literal.None? && !EmptyString(f.comment)
  }

  predicate HasRename(modifying: bool, f: Field) {
    modifying && f.literal.None? && !EmptyString(f.newName)
  }

  /** The statements a field adds after the main one: its COMMENT, then
      its RENAME. Literal fields add none. */
  function FollowUps(b: Base, table: string, modifying: bool, f: Field): seq<string> {
    (if HasComment(f) then [CommentStatement(b, table, f)] else [])
    + (if HasRename(modifying, f) then [RenameStatement(b, table, f)] else [])
  }

  function AllFollowUps(b: Base, table: string, modifying: bool, fields: seq<Field>): seq<string>
    decreases |fields|
  {
    if |fields| == 0 then []
    else AllFollowUps(b, table, modifying, fields[..|fields| - 1]) + FollowUps(b, table, modifying, fields[|fields| - 1])
  }

  /** The fields as the loop sees them once MODIFY has adjusted their null
      clauses. */
  function Prepared(modifying: bool, fields: seq<Field>, nullable: map<string, bool>): (r: seq<Field>)
    ensures |r| == |fields|
    ensures forall i | 0 <= i < |fields| :: r[i] == (if modifying then AdjustNull(fields[i], nullable) else fields[i])
  {
    seq(|fields|, i requires 0 <= i < |fields| => if modifying then AdjustNull(fields[i], nullable) else fields[i])
  }

  function AlterItems(b: Base, fields: seq<Field>): (r: seq<string>)
    ensures |r| == |fields|
    ensures forall i | 0 <= i < |fields| :: r[i] == AlterItem(b, fields[i])
  {
    seq(|fields|, i requires 0 <= i < |fields| => AlterItem(b, fields[i]))
  }

  function MainStatement(b: Base, table: string, keyword: string, items: seq<string>): string {
    "ALTER TABLE " + b.escape(table) + " " + keyword + " "
    + (if |items| == 1 then items[0] else "(" + Join(items, ",") + ")")
  }

  /** `array_column($fieldData, 'nullable', 'name')`: a later column of
      the same name overwrites an earlier one. */
  function NullableMap(columns: seq<Catalog.FieldInfo>): (m: map<string, bool>)
    ensures m.Keys == set i | 0 <= i < |columns| :: columns[i].name
    decreases |columns|
  {
    if |columns| == 0 then map[]
    else
      var init := columns[..|columns| - 1];
      var m0 := NullableMap(init);
      assert forall i | 0 <= i < |init| :: init[i] == columns[i];
      m0[columns[|columns| - 1].name := columns[|columns| - 1].nullable]
  }

  /** A column's entry is the nullability of its last occurrence. */
  lemma {:induction false} NullableMapLast(columns: seq<Catalog.FieldInfo>, i: nat)
    requires i < |columns|
    requires forall j | i < j < |columns| :: columns[j].name != columns[i].name
    ensures NullableMap(columns)[columns[i].name] == columns[i].nullable
    decreases |columns|
  {
    if i < |columns| - 1 {
      var init := columns[..|columns| - 1];
      NullableMapLast(init, i);
    }
  }

  /** `_alterTable`. `fieldData` is what `getFieldData` returns for the
      table; its failure propagates, except for DROP, which never reads
      it. */
  function AlterTable(b: Base, table: string, alteration: Alteration, fieldData: Result<seq<Catalog.FieldInfo>>,
                      parentDrop: (string, seq<string>) -> string): (r: Result<AlterResult>)
    ensures alteration.Drop? ==> r.Success?
    ensures !alteration.Drop? ==> (r.Failure? <==> fieldData.Failure?)
    ensures r.Failure? ==> r.error == fieldData.error
  {
    match alteration
    case Drop(columns) => Success(ParentStatement(parentDrop(table, columns)))
    case _ =>
      if fieldData.Failure? then Failure(fieldData.error)
      else Success(AlterStatements(b, table, alteration, NullableMap(fieldData.value)))
  }

  /** The statements of an ADD, MODIFY or CHANGE, given the current
      nullability of the table's columns. */
  function AlterStatements(b: Base, table: string, alteration: Alteration, nullable: map<string, bool>): AlterResult
    requires !alteration.Drop?
  {
    var modifying := !alteration.Add?;
    var fields := Prepared(modifying, alteration.fields, nullable);
    var items := AlterItems(b, fields);
    Statements([MainStatement(b, table, if modifying then "MODIFY" else "ADD", items)]
               + AllFollowUps(b, table, modifying, fields))
  }

  /** DROP returns the parent's statement untouched. */
  lemma AlterDropIsParent(b: Base, table: string, columns: seq<string>, fieldData: Result<seq<Catalog.FieldInfo>>,
                          parentDrop: (string, seq<string>) -> string)
    ensures AlterTable(b, table, Drop(columns), fieldData, parentDrop) == Success(ParentStatement(parentDrop(table, columns)))
  {
  }

  /** CHANGE is MODIFY. */
  lemma AlterChangeIsModify(b: Base, table: string, fields: seq<Field>, fieldData: Result<seq<Catalog.FieldInfo>>,
                            parentDrop: (string, seq<string>) -> string)
    ensures AlterTable(b, table, Change(fields), fieldData, parentDrop)
            == AlterTable(b, table, Modify(fields), fieldData, parentDrop)
  {
  }

  /** Under MODIFY a rendered field's null clause is left out exactly when
      its wish for NULL equals the column's current nullability; under ADD
      the field is rendered as given. */
  lemma AlterNullHandling(b: Base, table: string, fields: seq<Field>, nullable: map<string, bool>, i: nat)
    requires i < |fields| && fields[i].literal.None? && fields[i].name in nullable
    ensures var f := fields[i];
            var m := Prepared(true, fields, nullable)[i];
            && (WantsNull(f) == nullable[f.name] ==> AlterItem(b, m) == "\n\t\n\t" + ColumnHead(b, f) + f.unique)
            && (WantsNull(f) != nullable[f.name] ==> AlterItem(b, m) == "\n\t\n\t" + ProcessColumn(b, f))
    ensures Prepared(false, fields, nullable)[i] == fields[i]
  {
    ProcessColumnSplit(b, fields[i]);
    ProcessColumnSplit(b, fields[i].(nullClause := ""));
  }

  function CountComments(fields: seq<Field>): nat
    decreases |fields|
  {
    if |fields| == 0 then 0 else CountComments(fields[..|fields| - 1]) + (if HasComment(fields[|fields| - 1]) then 1 else 0)
  }

  function CountRenames(modifying: bool, fields: seq<Field>): nat
    decreases |fields|
  {
    if |fields| == 0 then 0
    else CountRenames(modifying, fields[..|fields| - 1]) + (if HasRename(modifying, fields[|fields| - 1]) then 1 else 0)
  }

  lemma {:induction false} AllFollowUpsCount(b: Base, table: string, modifying: bool, fields: seq<Field>)
    ensures |AllFollowUps(b, table, modifying, fields)| == CountComments(fields) + CountRenames(modifying, fields)
    ensures !modifying ==> CountRenames(modifying, fields) == 0
    decreases |fields|
  {
    if |fields| > 0 {
      AllFollowUpsCount(b, table, modifying, fields[..|fields| - 1]);
    }
  }

  /** Read from the front, the follow-ups are the first field's
      statements and then those of the remaining fields. */
  lemma {:induction false} AllFollowUpsFromFront(b: Base, table: string, modifying: bool, fields: seq<Field>)
    requires |fields| > 0
    ensures AllFollowUps(b, table, modifying, fields)
            == FollowUps(b, table, modifying, fields[0]) + AllFollowUps(b, table, modifying, fields[1..])
    decreases |fields|
  {
    if |fields| > 1 {
      var init := fields[..|fields| - 1];
      AllFollowUpsFromFront(b, table, modifying, init);
      assert init[1..] == fields[1..][..|fields| - 2];
      assert init[0] == fields[0];
    } else {
      assert fields[..0] == [];
    }
  }

  /** The statements field `i` contributes start right after those of the
      fields before it: first its COMMENT, if any, then its RENAME, if any.
      The next field's statements start right after them, so a field's
      statements all come before those of any later field. */
  lemma {:induction false} AllFollowUpsOrder(b: Base, table: string, modifying: bool, fields: seq<Field>, i: nat)
    requires i < |fields|
    ensures var r := AllFollowUps(b, table, modifying, fields);
            var f := fields[i];
            var k := CountComments(fields[..i]) + CountRenames(modifying, fields[..i]);
            var c := if HasComment(f) then 1 else 0;
            var n := if HasRename(modifying, f) then 1 else 0;
            && k + c + n <= |r|
            && (HasComment(f) ==> r[k] == CommentStatement(b, table, f))
            && (HasRename(modifying, f) ==> r[k + c] == RenameStatement(b, table, f))
            && CountComments(fields[..i + 1]) + CountRenames(modifying, fields[..i + 1]) == k + c + n
    decreases |fields|
  {
    var init := fields[..|fields| - 1];
    assert fields[..i + 1][..i] == fields[..i];
    if i == |fields| - 1 {
      AllFollowUpsCount(b, table, modifying, init);
      assert fields[..i + 1] == fields;
    } else {
      AllFollowUpsOrder(b, table, modifying, init, i);
      assert init[..i] == fields[..i] && init[..i + 1] == fields[..i + 1];
    }
  }

  /** Adjusting null clauses changes no follow-up statement. */
  lemma {:induction false} PreparedKeepsFollowUps(b: Base, table: string, modifying: bool, fields: seq<Field>,
                                                  nullable: map<string, bool>)
    ensures AllFollowUps(b, table, modifying, Prepared(modifying, fields, nullable))
            == AllFollowUps(b, table, modifying, fields)
    decreases |fields|
  {
    if |fields| > 0 {
      var init := fields[..|fields| - 1];
      PreparedKeepsFollowUps(b, table, modifying, init, nullable);
      var p := Prepared(modifying, fields, nullable);
      assert p[..|init|] == Prepared(modifying, init, nullable);
    }
  }

  /** The statement list is the ALTER TABLE ... ADD/MODIFY statement,
      followed by the COMMENT and RENAME statements of the fields in field
      order (one per commented rendered field and, under MODIFY only, one
      per renamed rendered field). A single item is used bare; any other
      number is joined by ',' inside parentheses. */
  lemma AlterStatementsShape(b: Base, table: string, alteration: Alteration, nullable: map<string, bool>)
    requires !alteration.Drop?
    ensures var r := AlterStatements(b, table, alteration, nullable);
            var modifying := !alteration.Add?;
            var keyword := if modifying then "MODIFY" else "ADD";
            var head := "ALTER TABLE " + b.escape(table) + " " + keyword + " ";
            var items := AlterItems(b, Prepared(modifying, alteration.fields, nullable));
            && r.Statements?
            && |r.sqls| == 1 + CountComments(alteration.fields) + CountRenames(modifying, alteration.fields)
            && r.sqls[1..] == AllFollowUps(b, table, modifying, alteration.fields)
            && (|items| == 1 ==> r.sqls[0] == head + items[0])
            && (|items| != 1 ==> r.sqls[0] == head + "(" + Join(items, ",") + ")")
            && (alteration.Add? ==> CountRenames(modifying, alteration.fields) == 0)
  {
    var modifying := !alteration.Add?;
    AlterStatementsParts(b, table, alteration, nullable);
    AllFollowUpsCount(b, table, modifying, alteration.fields);
  }

  /** The statement list is the main statement followed by the follow-ups
      of the fields as given. */
  lemma AlterStatementsParts(b: Base, table: string, alteration: Alteration, nullable: map<string, bool>)
    requires !alteration.Drop?
    ensures var modifying := !alteration.Add?;
            var keyword := if modifying then "MODIFY" else "ADD";
            var items := AlterItems(b, Prepared(modifying, alteration.fields, nullable));
            var r := AlterStatements(b, table, alteration, nullable);
            && r.Statements?
            && |r.sqls| > 0
            && r.sqls[0] == MainStatement(b, table, keyword, items)
            && r.sqls[1..] == AllFollowUps(b, table, modifying, alteration.fields)
  {
    var modifying := !alteration.Add?;
    var fields := Prepared(modifying, alteration.fields, nullable);
    var keyword := if modifying then "MODIFY" else "ADD";
    var main := MainStatement(b, table, keyword, AlterItems(b, fields));
    var follow := AllFollowUps(b, table, modifying, fields);
    assert ([main] + follow)[1..] == follow;
    PreparedKeepsFollowUps(b, table, modifying, alteration.fields, nullable);
  }

  // ---------------------------------------------------------------------
  // _processForeignKeys

  /** A foreign key registered on a field: the referenced table and field
      and the requested actions. */
  datatype ForeignKey = ForeignKey(table: string, field: string, onDelete: string, onUpdate: string)

  const AllowedActions: seq<string> := ["CASCADE", "SET NULL", "NO ACTION"]

  function ForeignKeyClause(b: Base, table: string, field: string, fk: ForeignKey): string {
    ",\n\tCONSTRAINT " + b.escape(table + "_" + field + "_fk")
    + " FOREIGN KEY(" + b.escape(field) + ") REFERENCES " + b.escape(b.dbPrefix + fk.table)
    + " (" + b.escape(fk.field) + ")"
    + (if fk.onDelete in AllowedActions then " ON DELETE " + fk.onDelete else "")
  }

  /** `_processForeignKeys`: the clauses of the registered keys, in
      registration order. */
  function ProcessForeignKeys(b: Base, table: string, keys: seq<(string, ForeignKey)>): (r: string)
    ensures |keys| == 0 ==> r == ""
    ensures |keys| > 0 ==> r == ProcessForeignKeys(b, table, keys[..|keys| - 1])
                                 + ForeignKeyClause(b, table, keys[|keys| - 1].0, keys[|keys| - 1].1)
    decreases |keys|
  {
    ForeignKeysSnoc(b, table, keys);
    Concat(seq(|keys|, i requires 0 <= i < |keys| => ForeignKeyClause(b, table, keys[i].0, keys[i].1)))
  }

  /** The clause list splits into that of all keys but the last, then the
      last key's clause. */
  lemma ForeignKeysSnoc(b: Base, table: string, keys: seq<(string, ForeignKey)>)
    ensures |keys| > 0 ==>
            var clauses := seq(|keys|, i requires 0 <= i < |keys| => ForeignKeyClause(b, table, keys[i].0, keys[i].1));
            var init := keys[..|keys| - 1];
            Concat(clauses)
              == Concat(seq(|init|, i requires 0 <= i < |init| => ForeignKeyClause(b, table, init[i].0, init[i].1)))
                 + ForeignKeyClause(b, table, keys[|keys| - 1].0, keys[|keys| - 1].1)
  {
    if |keys| > 0 {
      var clauses := seq(|keys|, i requires 0 <= i < |keys| => ForeignKeyClause(b, table, keys[i].0, keys[i].1));
      var init := keys[..|keys| - 1];
      assert clauses[..|keys| - 1] == seq(|init|, i requires 0 <= i < |init| => ForeignKeyClause(b, table, init[i].0, init[i].1));
      assert clauses == clauses[..|keys| - 1] + [clauses[|keys| - 1]];
      ConcatAppend(clauses[..|keys| - 1], clauses[|keys| - 1]);
    }
  }

  /** No keys give no text; each key appends one clause, in the order the
      keys were added. */
  lemma ForeignKeysInOrder(b: Base, table: string, keys: seq<(string, ForeignKey)>, key: (string, ForeignKey))
    ensures ProcessForeignKeys(b, table, []) == ""
    ensures ProcessForeignKeys(b, table, keys + [key])
            == ProcessForeignKeys(b, table, keys) + ForeignKeyClause(b, table, key.0, key.1)
  {
    var all := keys + [key];
    var clauses := seq(|all|, i requires 0 <= i < |all| => ForeignKeyClause(b, table, all[i].0, all[i].1));
    var prior := seq(|keys|, i requires 0 <= i < |keys| => ForeignKeyClause(b, table, keys[i].0, keys[i].1));
    assert clauses == prior + [ForeignKeyClause(b, table, key.0, key.1)];
    ConcatAppend(prior, ForeignKeyClause(b, table, key.0, key.1));
  }

  /** ON DELETE is emitted only for CASCADE, SET NULL and NO ACTION, and
      the ON UPDATE action is never looked at. */
  lemma ForeignKeyActions(b: Base, table: string, field: string, fk: ForeignKey, otherUpdate: string)
    ensures var head := ",\n\tCONSTRAINT " + b.escape(table + "_" + field + "_fk")
                        + " FOREIGN KEY(" + b.escape(field) + ") REFERENCES " + b.escape(b.dbPrefix + fk.table)
                        + " (" + b.escape(fk.field) + ")";
            && (fk.onDelete in AllowedActions ==> ForeignKeyClause(b, table, field, fk) == head + " ON DELETE " + fk.onDelete)
            && (fk.onDelete !in AllowedActions ==> ForeignKeyClause(b, table, field, fk) == head)
    ensures ForeignKeyClause(b, table, field, fk) == ForeignKeyClause(b, table, field, fk.(onUpdate := otherUpdate))
  {
  }

  // ---------------------------------------------------------------------
  // _createTable

  /** `createTableIfStr` around its `%s`: the block up to and including
      the quote that opens the literal, the indentation inside the literal,
      and after the statement the closing quote and the handler. */
  const LiteralOpen: string := "declare\nbegin\n  execute immediate '"
  const Indent: string := "\n    "
  const WrapOpen: string := LiteralOpen + Indent
  const WrapClose: string := "'" + HandlerText
  /** The rest of the block after the literal's closing quote. */
  const HandlerText: string := ";" + "\n  exception when others then\n    if SQLCODE = -955 then null; else raise; end if;\nend"

  /** What the base forge supplies for a CREATE TABLE. */
  datatype CreateInput = CreateInput(
    columns: seq<Field>,            // _processFields(true)
    primaryKeys: string,            // _processPrimaryKeys
    foreignKeys: seq<(string, ForeignKey)>,
    createTableKeys: bool,
    indexes: Option<string>,        // _processIndexes when it returns a string
    tableAttributes: string)        // _createTableAttributes

  function CreateItem(b: Base, f: Field): string {
    match f.literal
    case Some(l) => "\n\t" + l
    case None => "\n\t" + ProcessColumn(b, f)
  }

  /** The column items of CREATE TABLE: each is "\n\t" followed by the
      field's `_literal` when it has one, and by its `_processColumn` text
      otherwise. */
  function CreateColumns(b: Base, columns: seq<Field>): (r: seq<string>)
    ensures |r| == |columns|
    ensures forall i | 0 <= i < |columns| ::
              && |r[i]| >= 2 && r[i][..2] == "\n\t"
              && (columns[i].literal.Some? ==> r[i][2..] == columns[i].literal.value)
              && (columns[i].literal.None? ==> r[i][2..] == ProcessColumn(b, columns[i]))
  {
    seq(|columns|, i requires 0 <= i < |columns| => CreateItem(b, columns[i]))
  }

  /** The CREATE TABLE statement before it is wrapped. */
  function CreateStatement(b: Base, table: string, input: CreateInput): string {
    var body := Join(CreateColumns(b, input.columns), ",")
                + input.primaryKeys
                + ProcessForeignKeys(b, table, input.foreignKeys)
                + (if input.createTableKeys && input.indexes.Some? then input.indexes.value else "");
    b.createTableStr("CREATE TABLE", b.escape(table), body) + input.tableAttributes
  }

  /** `sprintf($this->createTableIfStr, $sql)`: the statement is pasted
      into the PL/SQL string literal as it is. */
  function WrapAsWritten(sql: string): string {
    WrapOpen + sql + WrapClose
  }

  /** `_createTable` as written. `createTableIfStr` is a string, so the
      branch that consults `tableExists` never runs and `ifNotExists` has
      no effect: every statement is wrapped in the block that ignores
      ORA-00955. */
  function CreateTableAsWritten(b: Base, table: string, ifNotExists: bool, input: CreateInput): (r: string)
    ensures var sql := CreateStatement(b, table, input);
            && |r| == |WrapOpen| + |sql| + |WrapClose|
            && r[..|WrapOpen|] == WrapOpen
            && r[|WrapOpen|..|r| - |WrapClose|] == sql
            && r[|r| - |WrapClose|..] == WrapClose
  {
    var sql := CreateStatement(b, table, input);
    assert (WrapOpen + sql + WrapClose)[|WrapOpen|..|WrapOpen| + |sql|] == sql;
    WrapAsWritten(sql)
  }

  // Reading the wrapped block back as PL/SQL

  /** Reads the body of a PL/SQL string literal: `''` stands for one quote
      and a lone quote closes the literal. Yields the text read and what
      follows the closing quote, or None when the literal is not closed. */
  function ReadLiteral(s: string): Option<(string, string)>
    decreases |s|
  {
    if |s| == 0 then None
    else if s[0] == '\'' && |s| >= 2 && s[1] == '\'' then
      match ReadLiteral(s[2..])
      case None => None
      case Some(p) => Some(("'" + p.0, p.1))
    else if s[0] == '\'' then Some(("", s[1..]))
    else
      match ReadLiteral(s[1..])
      case None => None
      case Some(p) => Some(([s[0]] + p.0, p.1))
  }

  /** The statement `execute immediate` runs in a wrapped block, with what
      follows its literal, when the block starts as the wrapper does. */
  function ExecutedText(block: string): Option<(string, string)> {
    if |block| >= |LiteralOpen| && block[..|LiteralOpen|] == LiteralOpen
    then ReadLiteral(block[|LiteralOpen|..])
    else None
  }

  /** The literal runs the indentation followed by the statement, and the block
      continues with the exception handler. */
  predicate RunsStatement(block: string, sql: string) {
    ExecutedText(block) == Some((Indent + sql, HandlerText))
  }

  /** Doubles every single quote. */
  function EscapeQuotes(s: string): (r: string)
    ensures |r| >= |s|
    decreases |s|
  {
    if |s| == 0 then ""
    else if s[0] == '\'' then "''" + EscapeQuotes(s[1..])
    else [s[0]] + EscapeQuotes(s[1..])
  }

  predicate NoQuotes(s: string) {
    forall i | 0 <= i < |s| :: s[i] != '\''
  }

  /** What may follow a closing quote without reopening the literal. */
  predicate ClosesCleanly(rest: string) {
    |rest| == 0 || rest[0] != '\''
  }

  lemma ReadClose(rest: string)
    requires ClosesCleanly(rest)
    ensures ReadLiteral("'" + rest) == Some(("", rest))
  {
    var t := "'" + rest;
    assert t[1..] == rest;
    if |rest| > 0 {
      assert t[1] == rest[0];
    }
  }

  lemma ReadDoubled(t: string)
    ensures ReadLiteral("''" + t) == match ReadLiteral(t) case None => None case Some(p) => Some(("'" + p.0, p.1))
  {
    assert ("''" + t)[2..] == t;
  }

  lemma ReadPlainChar(c: char, t: string)
    requires c != '\''
    ensures ReadLiteral([c] + t) == match ReadLiteral(t) case None => None case Some(p) => Some(([c] + p.0, p.1))
  {
    assert ([c] + t)[1..] == t;
  }

  /** A quote-free prefix is read through unchanged. */
  lemma {:induction false} ReadPlain(p: string, t: string)
    requires NoQuotes(p)
    ensures ReadLiteral(p + t) == match ReadLiteral(t) case None => None case Some(x) => Some((p + x.0, x.1))
    decreases |p|
  {
    if |p| > 0 {
      ReadPlain(p[1..], t);
      assert p + t == [p[0]] + (p[1..] + t);
      ReadPlainChar(p[0], p[1..] + t);
      assert [p[0]] + p[1..] == p;
      match ReadLiteral(t) {
        case None =>
        case Some(x) =>
          assert [p[0]] + (p[1..] + x.0) == p + x.0;
      }
    } else {
      assert p + t == t;
      match ReadLiteral(t) {
        case None =>
        case Some(x) =>
          assert p + x.0 == x.0;
      }
    }
  }

  /** An escaped text followed by a closing quote reads back as itself. */
  lemma {:induction false} ReadEscaped(s: string, rest: string)
    requires ClosesCleanly(rest)
    ensures ReadLiteral(EscapeQuotes(s) + "'" + rest) == Some((s, rest))
    decreases |s|
  {
    var after := "'" + rest;
    assert EscapeQuotes(s) + "'" + rest == EscapeQuotes(s) + after;
    if |s| == 0 {
      assert EscapeQuotes(s) + after == after;
      ReadClose(rest);
    } else {
      ReadEscaped(s[1..], rest);
      assert EscapeQuotes(s[1..]) + "'" + rest == EscapeQuotes(s[1..]) + after;
      ReadEscapedStep(s, after);
      assert [s[0]] + s[1..] == s;
    }
  }

  /** One step of reading an escaped text: its first character (doubled
      when it is a quote) is read, then the rest of the text. */
  lemma ReadEscapedStep(s: string, after: string)
    requires |s| > 0
    ensures ReadLiteral(EscapeQuotes(s) + after)
            == match ReadLiteral(EscapeQuotes(s[1..]) + after)
               case None => None
               case Some(p) => Some(([s[0]] + p.0, p.1))
  {
    var t := EscapeQuotes(s[1..]) + after;
    if s[0] == '\'' {
      assert EscapeQuotes(s) + after == "''" + t;
      ReadDoubled(t);
      assert [s[0]] == "'";
    } else {
      assert EscapeQuotes(s) + after == [s[0]] + t;
      ReadPlainChar(s[0], t);
    }
  }

  lemma {:induction false} EscapeWithoutQuotes(s: string)
    requires NoQuotes(s)
    ensures EscapeQuotes(s) == s
    decreases |s|
  {
    if |s| > 0 {
      EscapeWithoutQuotes(s[1..]);
      assert [s[0]] + s[1..] == s;
    }
  }

  lemma {:induction false} EscapeAppend(x: string, y: string)
    ensures EscapeQuotes(x + y) == EscapeQuotes(x) + EscapeQuotes(y)
    decreases |x|
  {
    if |x| > 0 {
      EscapeAppend(x[1..], y);
      assert (x + y)[1..] == x[1..] + y;
      assert (x + y)[0] == x[0];
    } else {
      assert x + y == y;
    }
  }

  lemma IndentHasNoQuotes()
    ensures NoQuotes(Indent)
  {
  }

  lemma AfterPrefix(p: string, body: string)
    ensures |p + body| >= |p| && (p + body)[..|p|] == p && (p + body)[|p|..] == body
  {
  }

  lemma HandlerClosesCleanly()
    ensures ClosesCleanly(HandlerText)
  {
  }

  /** Wrapping with quotes doubled. */
  function WrapEscaped(sql: string): string {
    WrapOpen + EscapeQuotes(sql) + WrapClose
  }

  /** Whatever the statement holds, the wrapped block runs exactly it. */
  lemma WrapEscapedRunsStatement(sql: string)
    ensures RunsStatement(WrapEscaped(sql), sql)
  {
    HandlerClosesCleanly();
    IndentHasNoQuotes();
    EscapeWithoutQuotes(Indent);
    EscapeAppend(Indent, sql);
    var body := EscapeQuotes(Indent + sql) + "'" + HandlerText;
    assert WrapEscaped(sql) == LiteralOpen + body;
    AfterPrefix(LiteralOpen, body);
    ReadEscaped(Indent + sql, HandlerText);
  }

  /** A statement without quotes is run as it is by the wrapper as
      written. */
  lemma WrapAsWrittenWithoutQuotes(sql: string)
    requires NoQuotes(sql)
    ensures RunsStatement(WrapAsWritten(sql), sql)
  {
    EscapeWithoutQuotes(sql);
    WrapEscapedRunsStatement(sql);
  }

  /** A column with a quoted default, as the base forge renders string
      defaults, makes the wrapper as written end the literal inside the
      statement: the literal closes before the default's value, so the
      block no longer runs that statement (the text left after the
      literal does not even parse as PL/SQL). */
  lemma QuotedDefaultBreaksWrapper()
    ensures var sql := "CREATE TABLE t (c DEFAULT 'x')";
            && !RunsStatement(WrapAsWritten(sql), sql)
            && RunsStatement(WrapEscaped(sql), sql)
  {
    var column := "CREATE TABLE t (c DEFAULT ";
    var sql := column + "'x')";
    assert sql == "CREATE TABLE t (c DEFAULT 'x')";
    var head := Indent + column;
    var after := "x')" + WrapClose;
    assert WrapAsWritten(sql) == LiteralOpen + (head + ("'" + after));
    AfterPrefix(LiteralOpen, head + ("'" + after));
    IndentHasNoQuotes();
    assert NoQuotes(column);
    assert NoQuotes(head);
    ReadPlain(head, "'" + after);
    ReadClose(after);
    assert head + "" == head;
    assert ExecutedText(WrapAsWritten(sql)) == Some((head, after));
    assert |head| < |Indent + sql|;
    WrapEscapedRunsStatement(sql);
  }

  /** `_createTable` with the statement escaped for the literal it is
      placed in. As written, `ifNotExists` has no effect. */
  function CreateTableEscaped(b: Base, table: string, ifNotExists: bool, input: CreateInput): string {
    WrapEscaped(CreateStatement(b, table, input))
  }

  /** Neither version depends on `ifNotExists`. The escaped version's
      block always runs exactly the CREATE statement and swallows only
      SQLCODE -955; the version as written does so whenever the statement
      holds no single quote. */
  lemma CreateTableAlwaysWrapped(b: Base, table: string, input: CreateInput)
    ensures CreateTableAsWritten(b, table, true, input) == CreateTableAsWritten(b, table, false, input)
    ensures NoQuotes(CreateStatement(b, table, input)) ==>
              RunsStatement(CreateTableAsWritten(b, table, true, input), CreateStatement(b, table, input))
    ensures CreateTableEscaped(b, table, true, input) == CreateTableEscaped(b, table, false, input)
    ensures RunsStatement(CreateTableEscaped(b, table, true, input), CreateStatement(b, table, input))
    ensures var r := CreateTableEscaped(b, table, true, input);
            && r[..|WrapOpen|] == WrapOpen
            && r[|r| - |WrapClose|..] == WrapClose
  {
    var sql := CreateStatement(b, table, input);
    WrapEscapedRunsStatement(sql);
    if NoQuotes(sql) {
      WrapAsWrittenWithoutQuotes(sql);
    }
  }

  // ---------------------------------------------------------------------
  // _dropTable

  /** `_dropTable`: the parent's DROP statement with one PURGE suffix;
      an empty parent result stays empty. */
  function DropTable(parentSql: string, cascade: bool): (r: string)
    ensures parentSql == "" <==> r == ""
    ensures |r| >= |parentSql|
    ensures parentSql != "" ==> r[..|parentSql|] == parentSql
    ensures parentSql != "" && cascade ==> r[|parentSql|..] == " CASCADE CONSTRAINTS PURGE"
    ensures parentSql != "" && !cascade ==> r[|parentSql|..] == " PURGE"
  {
    if parentSql != "" && cascade then parentSql + " CASCADE CONSTRAINTS PURGE"
    else if parentSql != "" then parentSql + " PURGE"
    else parentSql
  }
}

=== FILE: forge_types.dfy ===
/** Column attribute rewriting of the OCI8 forge: the generic-to-Oracle
    type mapping of `_attributeType`, whose integer cases fall through one
    another, and the identity clause of `_attributeAutoIncrement`. An
    attribute array is a map from upper-case attribute names to PHP
    values. */
module ForgeTypes {
  import opened PhpStrings
  import opened PhpValues

  type Attributes = map<string, Value>

  const TypeKey: string := "TYPE"
  const ConstraintKey: string := "CONSTRAINT"

  /** The lengths the integer cases assign, in switch order: TINYINT,
      SMALLINT, MEDIUMINT, INT/INTEGER, BIGINT. */
  const IntegerLengths: seq<int> := [3, 5, 7, 11, 19]

  /** The switch subject: the upper-cased TYPE. */
  function TypeName(attrs: Attributes): string {
    ToUpper(ToStr(Get(attrs, TypeKey)))
  }

  /** The integer case a type enters the switch at, or -1. */
  function IntegerEntry(t: string): (k: int)
    ensures -1 <= k < |IntegerLengths|
  {
    if t == "TINYINT" then 0
    else if t == "SMALLINT" then 1
    else if t == "MEDIUMINT" then 2
    else if t == "INT" || t == "INTEGER" then 3
    else if t == "BIGINT" then 4
    else -1
  }

  /** The integer cases from `k` on, each keeping an existing constraint
      and otherwise supplying its own length. */
  function FallThrough(attrs: Attributes, k: nat): Attributes
    requires k <= |IntegerLengths|
    decreases |IntegerLengths| - k
  {
    if k == |IntegerLengths| then attrs
    else FallThrough(attrs[ConstraintKey := Coalesce(attrs, ConstraintKey, Int(IntegerLengths[k]))], k + 1)
  }

  /** `_attributeType`: only TYPE and CONSTRAINT can change; every other
      attribute is kept as it was. */
  function AttributeType(attrs: Attributes): (r: Attributes)
    ensures r.Keys <= attrs.Keys + {TypeKey, ConstraintKey}
    ensures forall key | key in attrs && key != TypeKey && key != ConstraintKey :: key in r && r[key] == attrs[key]
  {
    var t := TypeName(attrs);
    var entry := IntegerEntry(t);
    if entry >= 0 then
      FallThroughKeepsFirst(attrs, entry);
      FallThrough(attrs, entry)[TypeKey := Str("NUMBER")]
    else if t == "NUMERIC" then attrs[TypeKey := Str("NUMBER")]
    else if t == "DATETIME" then attrs[TypeKey := Str("DATE")]
    else if t == "TEXT" || t == "VARCHAR" then
      attrs[TypeKey := Str("VARCHAR2")][ConstraintKey := Coalesce(attrs, ConstraintKey, Int(255))]
    else attrs
  }

  // Reference table for the mapping

  /** The Oracle type a generic type becomes, if it is mapped. */
  function OracleType(t: string): string {
    if t in {"TINYINT", "SMALLINT", "MEDIUMINT", "INT", "INTEGER", "BIGINT", "NUMERIC"} then "NUMBER"
    else if t == "DATETIME" then "DATE"
    else if t in {"TEXT", "VARCHAR"} then "VARCHAR2"
    else ""
  }

  /** The constraint a type receives when it has none, if any. */
  function DefaultLength(t: string): int {
    if t == "TINYINT" then 3
    else if t == "SMALLINT" then 5
    else if t == "MEDIUMINT" then 7
    else if t == "INT" || t == "INTEGER" then 11
    else if t == "BIGINT" then 19
    else if t == "TEXT" || t == "VARCHAR" then 255
    else 0
  }

  /** Falling through the integer cases keeps the first constraint that is
      set: an existing one, else the length of the entry case. */
  lemma {:induction false} FallThroughKeepsFirst(attrs: Attributes, k: nat)
    requires k < |IntegerLengths|
    ensures var r := FallThrough(attrs, k);
            && r.Keys == attrs.Keys + {ConstraintKey}
            && r[ConstraintKey] == Coalesce(attrs, ConstraintKey, Int(IntegerLengths[k]))
            && forall key | key in attrs && key != ConstraintKey :: r[key] == attrs[key]
    decreases |IntegerLengths| - k
  {
    var next := attrs[ConstraintKey := Coalesce(attrs, ConstraintKey, Int(IntegerLengths[k]))];
    if k + 1 < |IntegerLengths| {
      FallThroughKeepsFirst(next, k + 1);
      assert IsSet(next, ConstraintKey);
    }
  }

  /** The mapping as a table: a mapped type gets its Oracle type and, when
      its constraint is absent or null, its default length; NUMERIC and
      DATETIME keep their constraint; every other key is kept; unmapped
      types are left alone. */
  lemma AttributeTypeTable(attrs: Attributes)
    ensures var t := TypeName(attrs);
            var r := AttributeType(attrs);
            && (OracleType(t) == "" ==> r == attrs)
            && (OracleType(t) != "" ==> r[TypeKey] == Str(OracleType(t)))
            && (DefaultLength(t) != 0 ==> ConstraintKey in r && r[ConstraintKey] == Coalesce(attrs, ConstraintKey, Int(DefaultLength(t))))
            && (DefaultLength(t) == 0 ==> (ConstraintKey in r <==> ConstraintKey in attrs))
            && (DefaultLength(t) == 0 && ConstraintKey in attrs ==> r[ConstraintKey] == attrs[ConstraintKey])
            && (forall key | key in attrs && key != TypeKey && key != ConstraintKey :: key in r && r[key] == attrs[key])
            && r.Keys <= attrs.Keys + {TypeKey, ConstraintKey}
  {
    var t := TypeName(attrs);
    if IntegerEntry(t) >= 0 {
      FallThroughKeepsFirst(attrs, IntegerEntry(t));
    }
  }

  /** An existing constraint is never overwritten. */
  lemma AttributeTypeKeepsConstraint(attrs: Attributes)
    requires IsSet(attrs, ConstraintKey)
    ensures ConstraintKey in AttributeType(attrs) && AttributeType(attrs)[ConstraintKey] == attrs[ConstraintKey]
  {
    AttributeTypeTable(attrs);
  }

  /** Mapping twice is mapping once: the Oracle types are not mapped. */
  lemma AttributeTypeIdempotent(attrs: Attributes)
    ensures AttributeType(AttributeType(attrs)) == AttributeType(attrs)
  {
    AttributeTypeTable(attrs);
    var r := AttributeType(attrs);
    var t := TypeName(attrs);
    if OracleType(t) != "" {
      assert ToUpper(OracleType(t)) == OracleType(t);
      assert TypeName(r) == OracleType(t);
    }
  }

  /** A SMALLINT without a constraint becomes NUMBER with length 5. */
  lemma SmallintExample()
    ensures AttributeType(map[TypeKey := Str("SMALLINT"), "NULL" := Bool(true)])
            == map[TypeKey := Str("NUMBER"), "NULL" := Bool(true), ConstraintKey := Int(5)]
  {
    var attrs := map[TypeKey := Str("SMALLINT"), "NULL" := Bool(true)];
    assert ToUpper("SMALLINT") == "SMALLINT";
    assert IntegerEntry(TypeName(attrs)) == 1;
    FallThroughKeepsFirst(attrs, 1);
    var r := AttributeType(attrs);
    assert r.Keys == attrs.Keys + {ConstraintKey};
    assert r[ConstraintKey] == Int(5);
  }

  // ---------------------------------------------------------------------
  // _attributeAutoIncrement

  const IdentityClause: string := " GENERATED BY DEFAULT AS IDENTITY"

  /** The identity clause is used only for `AUTO_INCREMENT === true` on a
      NUMBER column of a server at release 12.1 or later. */
  predicate TakesIdentity(attrs: Attributes, columnType: string, versionAtLeast121: bool) {
    && !Empty(Get(attrs, "AUTO_INCREMENT"))
    && Get(attrs, "AUTO_INCREMENT") == Bool(true)
    && ContainsNoCase(columnType, "NUMBER")
    && versionAtLeast121
  }
}

=== FILE: php_strings.dfy ===
/** The PHP string functions the driver relies on, with their PHP meaning:
    ASCII-only case mapping (`strtoupper`, `strtolower`, `stripos`),
    character-set trimming (`trim`, `ltrim`, `rtrim`), substring search
    (`strpos`), `str_replace` with an empty replacement, `implode` and
    `ctype_digit`. */
module PhpStrings {

  function UpperChar(c: char): char {
    if 'a' <= c <= 'z' then (c as int - 32) as char else c
  }

  function LowerChar(c: char): char {
    if 'A' <= c <= 'Z' then (c as int + 32) as char else c
  }

  /** `strtoupper` */
  function ToUpper(s: string): (r: string)
    ensures |r| == |s|
    ensures forall i | 0 <= i < |s| :: r[i] == UpperChar(s[i])
  {
    seq(|s|, i requires 0 <= i < |s| => UpperChar(s[i]))
  }

  /** `strtolower` */
  function ToLower(s: string): (r: string)
    ensures |r| == |s|
    ensures forall i | 0 <= i < |s| :: r[i] == LowerChar(s[i])
  {
    seq(|s|, i requires 0 <= i < |s| => LowerChar(s[i]))
  }

  /** The characters `trim`, `ltrim` and `rtrim` strip when no list is given. */
  const DefaultTrimChars: set<char> := {' ', '\t', '\n', '\r', '\0', '\U{000B}'}

  /** `rtrim($s, $chars)`: drops every character of `chars` at the end. */
  function TrimRight(s: string, chars: set<char>): (r: string)
    ensures |r| <= |s| && r == s[..|r|]
    ensures |r| == 0 || r[|r| - 1] !in chars
    ensures forall i | |r| <= i < |s| :: s[i] in chars
    decreases |s|
  {
    if |s| > 0 && s[|s| - 1] in chars then TrimRight(s[..|s| - 1], chars) else s
  }

  /** `ltrim($s, $chars)`: drops every character of `chars` at the start. */
  function TrimLeft(s: string, chars: set<char>): (r: string)
    ensures |r| <= |s| && r == s[|s| - |r|..]
    ensures |r| == 0 || r[0] !in chars
    ensures forall i | 0 <= i < |s| - |r| :: s[i] in chars
    decreases |s|
  {
    if |s| > 0 && s[0] in chars then TrimLeft(s[1..], chars) else s
  }

  /** `trim($s, $chars)` */
  function Trim(s: string, chars: set<char>): string {
    TrimLeft(TrimRight(s, chars), chars)
  }

  /** `$needle` occurs in `s` starting at index `i`. */
  predicate OccursAt(s: string, needle: string, i: int) {
    0 <= i && i + |needle| <= |s| && s[i..i + |needle|] == needle
  }

  /** `strpos($s, $needle) !== false` */
  predicate Contains(s: string, needle: string) {
    exists i | 0 <= i <= |s| :: OccursAt(s, needle, i)
  }

  /** `stripos($s, $needle) !== false` */
  predicate ContainsNoCase(s: string, needle: string) {
    Contains(ToLower(s), ToLower(needle))
  }

  /** `stripos($s, $prefix) === 0` */
  predicate StartsWithNoCase(s: string, prefix: string) {
    |prefix| <= |s| && ToLower(s[..|prefix|]) == ToLower(prefix)
  }

  /** `str_replace($chars, '', $s)` where every search string is one character. */
  function RemoveChars(s: string, chars: set<char>): (r: string)
    ensures |r| <= |s|
    ensures forall i | 0 <= i < |r| :: r[i] !in chars
  {
    if |s| == 0 then ""
    else (if s[0] in chars then "" else [s[0]]) + RemoveChars(s[1..], chars)
  }

  /** A string with none of `chars` in it is left alone by `RemoveChars`. */
  lemma {:induction false} RemoveCharsKeepsClean(s: string, chars: set<char>)
    requires forall i | 0 <= i < |s| :: s[i] !in chars
    ensures RemoveChars(s, chars) == s
  {
    if |s| > 0 {
      RemoveCharsKeepsClean(s[1..], chars);
    }
  }

  /** `implode($sep, $parts)` */
  function Join(parts: seq<string>, sep: string): string
    decreases |parts|
  {
    if |parts| == 0 then ""
    else if |parts| == 1 then parts[0]
    else parts[0] + sep + Join(parts[1..], sep)
  }

  /** Concatenation of all parts, in order. */
  function Concat(parts: seq<string>): string
    decreases |parts|
  {
    if |parts| == 0 then "" else parts[0] + Concat(parts[1..])
  }

  lemma {:induction false} ConcatAppend(parts: seq<string>, last: string)
    ensures Concat(parts + [last]) == Concat(parts) + last
  {
    if |parts| > 0 {
      assert (parts + [last])[1..] == parts[1..] + [last];
      ConcatAppend(parts[1..], last);
    } else {
      assert parts + [last] == [last];
    }
  }

  predicate IsDigit(c: char) { '0' <= c <= '9' }

  /** `ctype_digit($s)` on a string argument */
  predicate AllDigits(s: string) {
    |s| > 0 && forall i | 0 <= i < |s| :: IsDigit(s[i])
  }

  function DigitChar(d: nat): char
    requires d < 10
  {
    ('0' as int + d) as char
  }

  /** Decimal text of a natural number, as PHP prints integers. */
  function NatToString(n: nat): (r: string)
    ensures AllDigits(r)
    decreases n
  {
    if n < 10 then [DigitChar(n)] else NatToString(n / 10) + [DigitChar(n % 10)]
  }

  function IntToString(n: int): string {
    if n < 0 then "-" + NatToString(-n) else NatToString(n)
  }
}

=== FILE: php_values.dfy ===
/** PHP values as they appear in the associative arrays the driver reads:
    column attribute arrays, bind parameter arrays and native results. An
    array with string keys is a `map<string, Value>`. */
module PhpValues {
  import opened PhpStrings

  datatype Value = Null | Bool(b: bool) | Int(i: int) | Str(s: string)

  /** `$m[$k]`, which yields `null` for a missing key. */
  function Get(m: map<string, Value>, k: string): Value {
    if k in m then m[k] else Null
  }

  /** `isset($m[$k])` */
  predicate IsSet(m: map<string, Value>, k: string) {
    k in m && m[k] != Null
  }

  /** `$m[$k] ?? $default` */
  function Coalesce(m: map<string, Value>, k: string, default: Value): (r: Value)
    ensures IsSet(m, k) ==> r == m[k]
    ensures !IsSet(m, k) ==> r == default
  {
    if IsSet(m, k) then m[k] else default
  }

  /** `empty($s)` for a string. */
  predicate EmptyString(s: string) {
    s == "" || s == "0"
  }

  /** `empty($v)` */
  predicate Empty(v: Value) {
    match v
    case Null => true
    case Bool(b) => !b
    case Int(i) => i == 0
    case Str(s) => EmptyString(s)
  }

  /** `(string) $v` */
  function ToStr(v: Value): string {
    match v
    case Null => ""
    case Bool(b) => if b then "1" else ""
    case Int(i) => IntToString(i)
    case Str(s) => s
  }
}

=== FILE: results.dfy ===
/** Failure-carrying result types used across the driver model: native
    calls that return PHP `false` become `None`, thrown exceptions become
    `Failure`. */
module Results {

  datatype Option<+T> = None | Some(value: T)

  /** The exceptions the driver raises (`DatabaseException` with the
      language key it passes to `lang()`). */
  datatype DbError =
    | InvalidArgument(detail: string)
    | FailGetFieldData
    | FailGetIndexData
    | FailGetForeignKeyData

  datatype Result<+R> = Success(value: R) | Failure(error: DbError)
}

=== FILE: session.dfy ===
/** The statement-level state of an OCI8 connection: the commit mode, the
    `resetStmtId` flag and the current statement handle, threaded through
    `connect`, `execute`, the `_trans*` operations, `storedProcedure`,
    `bindParams` and `error()`. Native calls are not modelled; their
    results (success flags, error arrays) are inputs. */
module Session {
  import opened Results
  import opened PhpStrings
  import opened PhpValues
  import Dsn

  /** `OCI_COMMIT_ON_SUCCESS` and `OCI_NO_AUTO_COMMIT`. */
  datatype CommitMode = CommitOnSuccess | NoAutoCommit

  /** A parsed statement handle, identified by the text it was parsed from. */
  datatype Statement = Statement(text: string)

  datatype Conn = Conn(dsn: string, commitMode: CommitMode, resetStmtId: bool, stmt: Option<Statement>)

  /** A connection object before its first statement. */
  function Initial(dsn: string): Conn {
    Conn(dsn, CommitOnSuccess, true, None)
  }

  // ---------------------------------------------------------------------
  // connect

  datatype ConnectFunction = OciConnect | OciPConnect

  /** The arguments of the native connect call; `charset` is passed only
      when it is not `empty()`. */
  datatype ConnectCall = ConnectCall(entry: ConnectFunction, username: string, password: string,
                                     dsn: string, charset: Option<string>)

  datatype Connected = Connected(built: Dsn.Built, call: ConnectCall)

  function Connect(dsn: string, config: Dsn.Config, username: string, password: string,
                   charset: string, persistent: bool): (r: Connected)
    ensures r.call.dsn == r.built.dsn
    ensures r.built == Dsn.ConnectDsn(dsn, config)
    ensures r.call.entry == OciPConnect <==> persistent
    ensures r.call.charset == None <==> EmptyString(charset)
    ensures r.call.charset != None ==> r.call.charset.value == charset
    ensures r.call.username == username && r.call.password == password
  {
    var built := Dsn.ConnectDsn(dsn, config);
    var entry := if persistent then OciPConnect else OciConnect;
    Connected(built, ConnectCall(entry, username, password, built.dsn,
                                 if EmptyString(charset) then None else Some(charset)))
  }

  // ---------------------------------------------------------------------
  // execute

  const BlockKeyword: string := "BEGIN"

  /** The statement text without its trailing semicolons. */
  function StripTerminators(sql: string): string {
    TrimRight(sql, {';'})
  }

  /** A PL/SQL block: after leading blanks, the text starts with BEGIN in
      any letter case. */
  predicate IsBlock(sql: string) {
    StartsWithNoCase(TrimLeft(sql, DefaultTrimChars), BlockKeyword)
  }

  /** The rewrite `execute` applies before parsing: every trailing `;` goes,
      and exactly one comes back when the text is a PL/SQL block. */
  function NormalizeSql(sql: string): (r: string)
    ensures StripTerminators(r) == StripTerminators(sql)
    ensures r == StripTerminators(sql) || r == StripTerminators(sql) + ";"
    ensures (|r| > 0 && r[|r| - 1] == ';') <==> IsBlock(StripTerminators(sql))
    ensures forall i | |r| <= i < |sql| :: sql[i] == ';'
  {
    var core := StripTerminators(sql);
    assert StripTerminators(core + ";") == core by {
      assert (core + ";")[..|core|] == core;
    }
    if IsBlock(core) then core + ";" else core
  }

  /** The text before the terminators is the original text minus its
      trailing `;` run, so nothing but semicolons is ever removed. */
  lemma NormalizeSqlKeepsStatement(sql: string)
    ensures var core := StripTerminators(sql);
            sql[..|core|] == core && forall i | |core| <= i < |sql| :: sql[i] == ';'
  {
  }

  /** Rewriting twice is rewriting once. */
  lemma {:induction false} NormalizeSqlIdempotent(sql: string)
    ensures NormalizeSql(NormalizeSql(sql)) == NormalizeSql(sql)
  {
    var r := NormalizeSql(sql);
    assert StripTerminators(r) == StripTerminators(sql);
  }

  const Prefetch: int := 1000
  const RowIdMarker: string := "RETURNING ROWID INTO :CI_OCI8_ROWID"

  /** The arguments `execute` hands to the native layer. */
  datatype ExecCall = ExecCall(stmt: Option<Statement>, mode: CommitMode, prefetch: int, bindsRowId: bool)

  datatype Executed = Executed(conn: Conn, call: ExecCall, result: Option<Statement>)

  /** `execute($sql)`: parses the rewritten text unless a stored procedure
      has already prepared the statement, then executes it with the current
      commit mode. `parsed` says whether the native parse gave a statement
      handle (`oci_parse` returns `false` otherwise); `nativeOk` is the
      result of the native execute. */
  function Execute(c: Conn, sql: string, parsed: bool, nativeOk: bool): (e: Executed)
    ensures e.call.mode == c.commitMode
    ensures e.conn.commitMode == c.commitMode && e.conn.resetStmtId == c.resetStmtId && e.conn.dsn == c.dsn
    ensures c.resetStmtId && parsed ==> e.conn.stmt == Some(Statement(NormalizeSql(sql)))
    ensures c.resetStmtId && !parsed ==> e.conn.stmt == None
    ensures !c.resetStmtId ==> e.conn.stmt == c.stmt
    ensures e.call.stmt == e.conn.stmt && e.call.prefetch == Prefetch
    ensures e.call.bindsRowId <==> Contains(if c.resetStmtId then NormalizeSql(sql) else sql, RowIdMarker)
    ensures e.result != None <==> nativeOk && e.conn.stmt != None
    ensures e.result != None ==> e.result == e.conn.stmt
  {
    var text := if c.resetStmtId then NormalizeSql(sql) else sql;
    var conn := if c.resetStmtId then c.(stmt := if parsed then Some(Statement(text)) else None) else c;
    var call := ExecCall(conn.stmt, c.commitMode, Prefetch, Contains(text, RowIdMarker));
    Executed(conn, call, if nativeOk && conn.stmt != None then conn.stmt else None)
  }

  // ---------------------------------------------------------------------
  // Transactions

  datatype Outcome = Outcome(conn: Conn, ok: bool)

  /** `_transBegin`: turns auto-commit off and reports success. */
  function TransBegin(c: Conn): (r: Outcome)
    ensures r.ok
    ensures r.conn.commitMode == NoAutoCommit
    ensures r.conn.(commitMode := c.commitMode) == c
  {
    Outcome(c.(commitMode := NoAutoCommit), true)
  }

  /** `_transCommit`: turns auto-commit back on and reports what the
      native commit returned (`nativeOk`). */
  function TransCommit(c: Conn, nativeOk: bool): (r: Outcome)
    ensures r.ok == nativeOk
    ensures r.conn.commitMode == CommitOnSuccess
    ensures r.conn.(commitMode := c.commitMode) == c
  {
    Outcome(c.(commitMode := CommitOnSuccess), nativeOk)
  }

  /** `_transRollback`: turns auto-commit back on and reports what the
      native rollback returned (`nativeOk`). */
  function TransRollback(c: Conn, nativeOk: bool): (r: Outcome)
    ensures r.ok == nativeOk
    ensures r.conn.commitMode == CommitOnSuccess
    ensures r.conn.(commitMode := c.commitMode) == c
  {
    Outcome(c.(commitMode := CommitOnSuccess), nativeOk)
  }

  /** Ending a transaction by commit or by rollback leaves the same
      connection, and beginning then ending one returns an auto-committing
      connection to its state before the transaction, whether or not the
      native call succeeded. */
  lemma EndTransactionRestores(c: Conn, nativeOk: bool)
    requires c.commitMode == CommitOnSuccess
    ensures TransCommit(c, nativeOk).conn == TransRollback(c, nativeOk).conn
    ensures TransCommit(TransBegin(c).conn, nativeOk).conn == c
    ensures TransRollback(TransBegin(c).conn, nativeOk).conn == c
  {
  }

  /** The operations that touch the commit mode or consult it. */
  datatype Op = Begin | Commit(ok: bool) | Rollback(ok: bool) | Exec(sql: string, parsed: bool, ok: bool)

  function Step(c: Conn, op: Op): Conn {
    match op
    case Begin => TransBegin(c).conn
    case Commit(ok) => TransCommit(c, ok).conn
    case Rollback(ok) => TransRollback(c, ok).conn
    case Exec(sql, parsed, ok) => Execute(c, sql, parsed, ok).conn
  }

  function Run(c: Conn, ops: seq<Op>): Conn
    decreases |ops|
  {
    if |ops| == 0 then c else Step(Run(c, ops[..|ops| - 1]), ops[|ops| - 1])
  }

  /** A transaction is open when the last Begin has not been followed by a
      Commit or Rollback. */
  predicate InTransaction(ops: seq<Op>)
    decreases |ops|
  {
    if |ops| == 0 then false
    else match ops[|ops| - 1]
      case Begin => true
      case Commit(_) => false
      case Rollback(_) => false
      case Exec(_, _, _) => InTransaction(ops[..|ops| - 1])
  }

  /** From a fresh connection, the commit mode is NO_AUTO_COMMIT exactly
      inside an open transaction, whatever the native commit and rollback
      results were. */
  lemma {:induction false} RunCommitMode(dsn: string, ops: seq<Op>)
    ensures Run(Initial(dsn), ops).commitMode == (if InTransaction(ops) then NoAutoCommit else CommitOnSuccess)
    decreases |ops|
  {
    if |ops| > 0 {
      RunCommitMode(dsn, ops[..|ops| - 1]);
    }
  }

  /** Every statement executed after `ops` is executed with the mode of the
      open transaction: no auto-commit between Begin and Commit/Rollback. */
  lemma ExecuteInsideTransaction(dsn: string, ops: seq<Op>, sql: string, parsed: bool, ok: bool)
    ensures Execute(Run(Initial(dsn), ops), sql, parsed, ok).call.mode
            == (if InTransaction(ops) then NoAutoCommit else CommitOnSuccess)
  {
    RunCommitMode(dsn, ops);
  }

  // ---------------------------------------------------------------------
  // storedProcedure and bindParams

  /** A bind parameter array with keys name, value, type and length. */
  type Param = map<string, Value>

  /** `OCI_B_CURSOR`, the Oracle type code SQLT_RSET. */
  const CursorBindType: Value := Int(116)

  function ParamName(p: Param): string {
    ToStr(Get(p, "name"))
  }

  /** Each parameter name followed by a comma, as the loop appends them. */
  function NameList(params: seq<Param>): string
    decreases |params|
  {
    if |params| == 0 then "" else ParamName(params[0]) + "," + NameList(params[1..])
  }

  function Names(params: seq<Param>): (r: seq<string>)
    ensures |r| == |params|
    ensures forall i | 0 <= i < |params| :: r[i] == ParamName(params[i])
  {
    seq(|params|, i requires 0 <= i < |params| => ParamName(params[i]))
  }

  /** The anonymous block that calls `package.procedure`; the commas of the
      name list are trimmed from both ends of the text. */
  function CallText(package: string, procedure: string, params: seq<Param>): string {
    Trim("BEGIN " + package + "." + procedure + "(" + NameList(params), {','}) + "); END;"
  }

  predicate IsCursorParam(p: Param) {
    IsSet(p, "type") && p["type"] == CursorBindType
  }

  /** Whether some parameter is bound as a cursor. */
  function HasCursor(params: seq<Param>): (r: bool)
    ensures r <==> exists i | 0 <= i < |params| :: IsCursorParam(params[i])
    decreases |params|
  {
    if |params| == 0 then false
    else
      var rest := HasCursor(params[1..]);
      assert rest <==> exists i | 1 <= i < |params| :: IsCursorParam(params[i]) by {
        forall i | 1 <= i < |params| ensures params[1..][i - 1] == params[i] { }
      }
      IsCursorParam(params[0]) || rest
  }

  const BindKeys: set<string> := {"name", "value", "type", "length"}

  /** The parameter array after `bindParams` fills its unset keys with ''. */
  function WithDefaults(p: Param): (q: Param)
    ensures q.Keys == p.Keys + BindKeys
    ensures forall k | k in BindKeys :: IsSet(q, k)
    ensures forall k | k in BindKeys && !IsSet(p, k) :: q[k] == Str("")
    ensures forall k | k in q && IsSet(p, k) :: q[k] == p[k]
    ensures forall k | k in q && k !in BindKeys :: q[k] == p[k]
  {
    map k | k in p.Keys + BindKeys :: if k in BindKeys && !IsSet(p, k) then Str("") else p[k]
  }

  /** The arguments of one native bind, in the call's order. */
  datatype Bind = Bind(name: Value, value: Value, length: Value, bindType: Value)

  function BindOf(p: Param): Bind {
    var q := WithDefaults(p);
    Bind(q["name"], q["value"], q["length"], q["type"])
  }

  /** `bindParams`: one bind per parameter, in order, when the statement
      handle is live; none otherwise. */
  function BindParams(stmtLive: bool, params: seq<Param>): (r: seq<Bind>)
    ensures !stmtLive ==> r == []
    ensures stmtLive ==> |r| == |params|
    ensures stmtLive ==> forall i | 0 <= i < |params| ::
              && r[i].name == Coalesce(params[i], "name", Str(""))
              && r[i].value == Coalesce(params[i], "value", Str(""))
              && r[i].length == Coalesce(params[i], "length", Str(""))
              && r[i].bindType == Coalesce(params[i], "type", Str(""))
  {
    if stmtLive then seq(|params|, i requires 0 <= i < |params| => BindOf(params[i])) else []
  }

  datatype ProcedureCall = ProcedureCall(
    sql: string,
    hasCursor: bool,
    binds: seq<Bind>,
    during: Conn,   // the connection while the call is executed
    after: Conn)    // the connection once `storedProcedure` returns

  /** `storedProcedure`: rejects an empty package or procedure name,
      otherwise prepares the call block, binds the parameters and runs it
      without re-parsing. `parsed` says whether the native parse gave a
      statement handle. */
  function StoredProcedure(c: Conn, package: string, procedure: string, params: seq<Param>, parsed: bool)
    : (r: Result<ProcedureCall>)
    ensures r.Failure? <==> package == "" || procedure == ""
    ensures r.Failure? ==> r.error == InvalidArgument(package + procedure)
    ensures r.Success? ==> var call := r.value;
              && call.sql == CallText(package, procedure, params)
              && (call.hasCursor <==> exists i | 0 <= i < |params| :: IsCursorParam(params[i]))
              && call.binds == BindParams(parsed, params)
              && !call.during.resetStmtId
              && call.during.stmt == (if parsed then Some(Statement(call.sql)) else None)
              && call.after == call.during.(resetStmtId := true)
              && call.after.commitMode == c.commitMode && call.after.dsn == c.dsn
  {
    if package == "" || procedure == "" then
      Failure(InvalidArgument(package + procedure))
    else
      var sql := CallText(package, procedure, params);
      var during := c.(resetStmtId := false, stmt := if parsed then Some(Statement(sql)) else None);
      Success(ProcedureCall(sql, HasCursor(params), BindParams(parsed, params), during, during.(resetStmtId := true)))
  }

  /** While the call runs, `execute` executes the prepared call block
      whatever text the query layer passes, and leaves `resetStmtId` off. */
  lemma ProcedureExecutesPreparedBlock(c: Conn, package: string, procedure: string, params: seq<Param>,
                                       sql: string, parsed: bool, ok: bool)
    requires package != "" && procedure != ""
    ensures var call := StoredProcedure(c, package, procedure, params, true).value;
            Execute(call.during, sql, parsed, ok).call.stmt == Some(Statement(CallText(package, procedure, params)))
  {
  }

  /** Concatenating `name,` pieces is the comma-joined list plus one comma. */
  lemma {:induction false} NameListIsJoin(params: seq<Param>)
    requires |params| > 0
    ensures NameList(params) == Join(Names(params), ",") + ","
    decreases |params|
  {
    if |params| > 1 {
      NameListIsJoin(params[1..]);
      assert Names(params[1..]) == Names(params)[1..];
    }
  }

  /** With no parameters, or a last name that neither is empty nor ends in
      a comma, the call is `BEGIN pkg.proc(` + names joined by ',' + `); END;`. */
  lemma {:induction false} CallTextShape(package: string, procedure: string, params: seq<Param>)
    requires |params| == 0 || (ParamName(params[|params| - 1]) != ""
                               && ParamName(params[|params| - 1])[|ParamName(params[|params| - 1])| - 1] != ',')
    ensures CallText(package, procedure, params)
            == "BEGIN " + package + "." + procedure + "(" + Join(Names(params), ",") + "); END;"
  {
    var head := "BEGIN " + package + "." + procedure + "(";
    var body := head + Join(Names(params), ",");
    assert head[|head| - 1] == '(';
    if |params| == 0 {
      assert head + NameList(params) == body;
      TrimRightKeeps(body, {','});
    } else {
      NameListIsJoin(params);
      LastOfJoin(Names(params));
      assert head + NameList(params) == body + ",";
      TrimRightDropsOne(body, ',');
    }
    assert body[0] == 'B';
    TrimLeftKeeps(body, {','});
  }

  lemma TrimRightKeeps(s: string, chars: set<char>)
    requires |s| > 0 && s[|s| - 1] !in chars
    ensures TrimRight(s, chars) == s
  {
  }

  lemma TrimLeftKeeps(s: string, chars: set<char>)
    requires |s| > 0 && s[0] !in chars
    ensures TrimLeft(s, chars) == s
  {
  }

  /** One trailing comma goes when the text before it does not end in one. */
  lemma TrimRightDropsOne(s: string, c: char)
    requires |s| > 0 && s[|s| - 1] != c
    ensures TrimRight(s + [c], {c}) == s
  {
    assert (s + [c])[..|s|] == s;
    TrimRightKeeps(s, {c});
  }

  /** The joined list ends as its last part does. */
  lemma {:induction false} LastOfJoin(parts: seq<string>)
    requires |parts| > 0 && parts[|parts| - 1] != ""
    ensures var j := Join(parts, ",");
            |j| > 0 && j[|j| - 1] == parts[|parts| - 1][|parts[|parts| - 1]| - 1]
    decreases |parts|
  {
    if |parts| > 1 {
      LastOfJoin(parts[1..]);
    }
  }

  // ---------------------------------------------------------------------
  // error()

  /** The handle whose error `error()` reports. */
  datatype ErrorSource = CursorSource | StatementSource | ConnectionSource | GlobalSource

  /** Which handles are live resources. */
  datatype Handles = Handles(cursor: bool, statement: bool, connection: bool)

  /** What the native error call returns: an array, or `false`. */
  datatype NativeError = NoError | ErrorArray(fields: map<string, Value>)

  function SourceOf(h: Handles): (s: ErrorSource)
    ensures s == CursorSource <==> h.cursor
    ensures s == StatementSource <==> !h.cursor && h.statement
    ensures s == ConnectionSource <==> !h.cursor && !h.statement && h.connection
    ensures s == GlobalSource <==> !h.cursor && !h.statement && !h.connection
  {
    if h.cursor then CursorSource
    else if h.statement then StatementSource
    else if h.connection then ConnectionSource
    else GlobalSource
  }

  /** `error()`: the native error of the most specific live handle, or an
      empty code and message when there is none. */
  function Error(h: Handles, native: ErrorSource -> NativeError): (r: map<string, Value>)
    ensures native(SourceOf(h)).ErrorArray? ==> r == native(SourceOf(h)).fields
    ensures native(SourceOf(h)).NoError? ==> r == map["code" := Str(""), "message" := Str("")]
  {
    match native(SourceOf(h))
    case ErrorArray(fields) => fields
    case NoError => map["code" := Str(""), "message" := Str("")]
  }

  /** Callers can always read `code` and `message` when the native layer
      reports errors with those keys. */
  lemma ErrorHasCodeAndMessage(h: Handles, native: ErrorSource -> NativeError)
    requires forall s :: native(s).ErrorArray? ==> "code" in native(s).fields && "message" in native(s).fields
    ensures "code" in Error(h, native) && "message" in Error(h, native)
  {
  }
}
